=== FILE: README.md ===
# Radiology Assistant: a verified model of the report-writing core

`app.py` is a single-file Streamlit application that helps a radiologist write
MRI reports. Under the widgets it holds a set of deterministic text and
sequence rules, and this project models them in Dafny and proves what they
promise:

- **Critical-finding flags.** `CRITICAL_PATTERNS` and
  `check_critical_findings_advanced` are a plain substring scan of the
  lower-cased draft. The scan runs region by region and pattern by pattern.
- **Differential diagnosis.** `DIFFERENTIAL_DATABASE` and
  `generate_differential` work in three steps:
  - a group fires when one of the `_`-separated pieces of its key occurs in
    the text;
  - the entries of every fired group are pooled and de-duplicated by
    diagnosis, keeping the first;
  - the result is stably sorted High, Medium, Low.
- **Template suggestions.** `TemplateRecommender` builds a word index and
  scores templates. The tokenizer `\b[a-z]{4,}\b` is modelled as the maximal
  runs of word characters that are four or more small letters.
- **Batch placeholders and search.** This covers the `[COLUMN]` substitution
  of `process_batch` and the case-insensitive `search_all_content`.
- **Normal values.** `NORMAL_VALUES`, `get_normal_values`, and the text that
  "Insert Normal Ranges" appends to the draft.
- **Template library.** Save, browse, load and delete of templates, with the
  category lists.
- **Report session and history.** The report session is generate, finalize,
  clear, dictation, suggestions, and add / load / delete / clear of history
  entries with the per-user filter and the ten-entry page. It is modelled as
  a record with pure transition functions.
- **Word export.** `create_branded_word_report` is modelled as the sequence
  of blocks it produces: headings with their level, paragraphs, bullets,
  page breaks and table rows.

Python's behaviour is written out where it matters:

- dictionaries keep insertion order (`Dicts`);
- `str.split`, `str.replace` and `str.strip` use Python's definitions
  (`Text`);
- `d[k]`, `list.remove` and an out-of-range table row become `KeyError`,
  `ValueError` and `IndexError` results (`Common`).

Clock readings (`datetime.now()`) are parameters of the operations that
store them.

Modules, one per file: `Common`, `Text`, `Dicts`, `CriticalFindings`,
`Differentials`, `Tokens`, `Recommender`, `Batch`, `Search`, `NormalValues`,
`Library`, `History`, `Export`, `Generated` (the text "Generate AI Report"
produces, and how the export lays it out), `Session`.

## Model

| member | source | states |
|---|---|---|
| CriticalFindings.CheckCriticalFindings | app.py:266-281 | a finding is reported exactly when its table row's keyword is a substring of the lower-cased text; every finding carries the given modality; there are never more findings than table rows |
| CriticalFindings.ScanIsFilteredTable | app.py:270-279 | the two nested loops produce the table flattened in declaration order (region, then pattern), filtered by keyword hit and turned into findings, so the output order is the table order |
| CriticalFindings.FlattenMembership | app.py:43-72 | a row is in the flattened table exactly when its pattern is listed under a region of that name |
| Differentials.CollectMembership | app.py:249-252 | a candidate is pooled exactly when it is an entry of a group that fires, i.e. one `_`-piece of whose key occurs in the lower-cased text |
| Differentials.PoolCandidates | app.py:246-252 | the pooling loop produces the entries of the fired groups, group after group in table order |
| Differentials.DedupByDiagnosis | app.py:255-261 | the seen-set loop keeps exactly the candidates of the reference "keep the first per diagnosis" walk |
| Differentials.KeepFirstsDiagnoses | app.py:255-261 | after de-duplication no diagnosis appears twice, and every diagnosis of the pool that is not already seen appears |
| Differentials.KeepFirstsAreFirsts | app.py:255-261 | every kept candidate is the first pooled candidate with its diagnosis |
| Differentials.KeepFirstsKeepOrder | app.py:255-261 | kept candidates come out in the order of their diagnoses' first positions in the pool |
| Differentials.SortByConfidenceIsStableSort | app.py:263 | the three-bucket form of `sorted(..., key=rank)` is ordered High, Medium, Low, is a permutation of its input, and keeps input order within each confidence level |
| Differentials.SortKeepsUniqueDiagnoses | app.py:263 | sorting a list with distinct diagnoses keeps them distinct |
| Differentials.DedupThenSortMeetsPromise | app.py:254-263 | for any pool, de-duplicating and then sorting gives distinct diagnoses, exactly the pool's diagnoses (as many as there are), each as its first pooled entry, sorted by rank and stable |
| Differentials.GenerateDifferential | app.py:243-263 | `generate_differential` lists every diagnosis of every fired group once, as the first fired group's entry, stably sorted High, Medium, Low, with no length cap |
| Differentials.SecondEntryWins | app.py:257-261 | in a pool `a + e + b` where neither `a` nor `e[0]` has `e[1]`'s diagnosis, `e[1]` is the one kept candidate with that diagnosis |
| Differentials.MultipleSclerosisKeepsWhiteMatterEntry | app.py:229-240 | when the white-matter group fires, "Multiple Sclerosis" keeps its Medium white-matter entry, and the High spinal-cord entry is dropped whatever else fires |
| Tokens.RunsFromAreWords | app.py:295 | scanning from a word boundary finds exactly the maximal runs of word characters at or after it |
| Tokens.WordsAreWholeTokens | app.py:305 | a string is a token of the text exactly when it is a whole word of the lower-cased text made of four or more small letters |
| Tokens.WordsIgnoreCase | app.py:305 | a text and its lower-cased form have the same tokens |
| Recommender.PostingsMembership | app.py:291-298 | a template name is under word `w` in the index exactly when `w` is a token of that template's content |
| Recommender.BuildIndex | app.py:291-298 | the index-building loop produces, for every word, the templates containing it in template order |
| Recommender.NewRecommender | app.py:287-289 | a new recommender keeps the templates it was given and an index built from them |
| Recommender.IndexHitsAreContentHits | app.py:308-311 | the points a template gains through the index are the text words that are tokens of its content |
| Recommender.ScorePositive | app.py:306-317 | a template scores at all exactly when it shares a token with the text or contains a text token in its lower-cased name |
| Recommender.TallyScores | app.py:306-317 | after both scoring loops every template's tally is (shared tokens) + 2 × (text tokens inside its lower-cased name), names outside the templates have no tally, and only scoring templates have an entry |
| Recommender.NameBonuses | app.py:313-317 | the name-bonus loop adds 2 × (text tokens inside the lower-cased name) to each template's tally and leaves every other tally alone |
| Recommender.TopByScore | app.py:319-320 | the first `limit` names by score: distinct, non-increasing, and none left out that beats a listed one |
| Recommender.Recommend | app.py:300-320 | an empty text gives nothing; otherwise at most `limit` distinct templates, each scoring at least one, best first, and no scoring template is left out unless the list is full of ones scoring at least as much |
| Batch.Placeholder | app.py:333 | the placeholder is `[`, the upper-cased column name, `]` |
| Batch.FillRowWithoutPlaceholders | app.py:330-334 | a template holding none of the row's placeholders comes back unchanged |
| Batch.FillOneColumn | app.py:332-334 | one column's substitution splits the template on its placeholder and joins the pieces with the value |
| Batch.FillRowAppend | app.py:332-334 | columns are substituted one after the other, in column order |
| Batch.ProcessRow | app.py:336-340 | the patient ID and name are the row's values when the columns exist and "Unknown" otherwise |
| Batch.ProcessBatch | app.py:329-342 | one result per row, in row order |
| Search.MatchingReportsMembership | app.py:358-363 | a report is found exactly when the query occurs in its lower-cased name, draft or AI report, a missing field counting as empty |
| Search.EmptyQueryFindsAll | app.py:356-363 | the empty query finds the whole history, in order |
| Search.MatchingTemplatesMembership | app.py:365-368 | a template hit is exactly a template whose lower-cased name or content holds the query, with its content cut to 200 characters |
| Search.TemplatePreviewsAreShort | app.py:368 | every template hit carries at most 200 characters, a prefix of the content of the template the hit names, and the whole content when that is 200 characters or fewer |
| Search.SearchAll | app.py:348-374 | the three result lists: the matching reports in order, the matching templates, and at most one draft hit, present exactly when the draft holds the query |
| NormalValues.GetNormalValues | app.py:377-379 | a listed category gives its table of ranges, any other category gives the empty table |
| NormalValues.RangeLinesHoldEachEntry | app.py:713-715 | the inserted text holds one `- name: range` line for every measurement of the category |
| NormalValues.UnknownCategoryHasHeadingOnly | app.py:713-715 | for a category without ranges only the heading line is produced |
| Library.Save | app.py:740-743 | saving fails only with a `KeyError` for a category that is not in the library, and only when the name and the draft are non-empty |
| Library.SaveNeedsNameAndDraft | app.py:741 | a save with an empty name or an empty draft changes nothing |
| Library.SaveThenLoad | app.py:742 | after a save the template loads back as the draft, and every other template loads as before |
| Library.SaveListsName | app.py:743 | after a save the chosen category's list is its old list with the name appended, and every other category lists what it listed before |
| Library.SaveKeepsConsistent | app.py:740-743 | saving keeps every listed name a saved template and the keys distinct |
| Library.InitialIsConsistent | app.py:537-539 | a new session's library is consistent: its six categories start empty, so none names a missing template |
| Library.Load | app.py:762-763 | loading succeeds exactly for a saved name and returns the stored template; otherwise it raises `KeyError` of that name |
| Library.List | app.py:750-755 | "All" lists every saved template name, in store order; any other choice lists that category's names, or raises `KeyError` for a category the library does not have |
| Library.ListedNamesLoad | app.py:750-763 | in a consistent library every name the browser lists can be loaded |
| Library.RemoveFirstName | app.py:770-771 | `cat.remove(name)` behind `if name in cat`: a list without the name is left alone; otherwise exactly its first occurrence is cut out and the other names keep their order |
| Library.DeleteAsWrittenRemovesFirst | app.py:767-771 | the source's delete fails with `KeyError` exactly when there is no such template; otherwise the template is gone, every other template loads as before, and every category's list loses only the first occurrence of the name |
| Library.DeleteAsWrittenConsistentWithoutRepeats | app.py:767-771 | when no category lists the name twice, the source's delete keeps every listed name a saved template |
| Library.DeleteKeepsConsistent | app.py:767-771 | the corrected delete removes the template, leaves every other one as it was, and leaves no category naming a missing template |
| Library.DeleteAsWrittenLeavesStaleName | app.py:767-771 | the source's delete, after the same name was saved twice, leaves the name listed: loading it and deleting it again raise `KeyError`, and the library is no longer consistent |
| Library.DeleteClearsRepeatedName | app.py:767-771 | with the corrected delete the same steps leave the category empty |
| Dicts.GetPut | app.py:742 | `d[k] = v` makes `k` read `v` and every other key read as before |
| Dicts.KeysPut | app.py:742 | an existing key keeps its place and a new key goes last in iteration order |
| Dicts.GetRemove | app.py:768 | `del d[k]` makes `k` missing and every other key read as before |
| Text.ReplaceIsJoinOfSplit | app.py:334 | `s.replace(p, r)` equals `r.join(s.split(p))` |
| Text.JoinSplitOn | app.py:471 | joining the pieces of `s.split(sep)` with `sep` gives `s` back |
| Text.StripEmptyIffBlank | app.py:475 | `s.strip()` is empty exactly when `s` is whitespace only |
| Text.StripIsSlice | app.py:475-476 | `s.strip()` is a contiguous piece of `s` |
| Text.StripEnds | app.py:475-476 | `s.strip()` neither starts nor ends with whitespace |
| History.Add | app.py:1002 | the new entry goes first and the rest of the history follows unchanged |
| History.RemoveFirst | app.py:1096 | `list.remove(e)` succeeds exactly when `e` is in the list and then cuts out its first occurrence, the others keeping their order; it raises `ValueError` otherwise |
| History.OwnedByMembership | app.py:1075-1076 | a user's own reports are exactly the entries whose creator is that user |
| History.VisibleToUser | app.py:1074-1081 | a non-administrator is shown their own reports only: the first ten of them (all when there are ten or fewer), in history order, the `i`-th shown being the one with `i` of their reports before it |
| History.VisibleToAdmin | app.py:1078-1081 | an administrator is shown the first ten entries of the whole history, whoever made them |
| History.AddedEntryComesFirst | app.py:1002 | a report just added heads its author's page and an administrator's page |
| Session.Generate | app.py:883-895 | an empty draft changes nothing; otherwise the report becomes the generated text for the draft, the report is no longer final, and the draft, patient information and history stay |
| Session.GenerateReopensFinalizedReport | app.py:883-891 | generating after finalizing unlocks the report again |
| Session.Finalize | app.py:912-928 | the report is final afterwards exactly when it was final already or there is a report to finalize; nothing else changes |
| Session.ClearDraft | app.py:904-906 | "Clear" empties the draft and changes nothing else |
| Session.FinalizeIdempotent | app.py:926-928 | finalizing twice is finalizing once |
| Session.AppendBlock | app.py:827 | appending to an empty draft gives the text; otherwise the draft, a newline, then the text |
| Session.Dictate | app.py:826-829 | non-empty dictation is appended to the draft and nothing else changes; empty dictation changes nothing |
| Session.InsertNormalRanges | app.py:711-716 | "Insert Normal Ranges" keeps the old draft in front, ends the draft with the ranges text, and changes nothing else |
| Session.InsertedRangesListEveryValue | app.py:712-717 | after "Insert Normal Ranges" the draft holds the line of every measurement of the category |
| Session.ApplySuggestion | app.py:725-728 | a suggestion succeeds exactly for a saved template, raises `KeyError` for any other name, and changes only the draft |
| Session.SuggestionAppendsTemplate | app.py:728 | the template follows the draft after a newline, verbatim |
| Session.LoadFromHistory | app.py:1085-1090 | loading an entry succeeds exactly when it has a draft, patient information and a report, and fails with a `KeyError` otherwise; on success the draft, patient information and report are the entry's, the reviewer notes are the entry's or `''` when it has none, the final flag is the entry's or false when it has none, and the history, the report date and timestamp and the user stay |
| Session.AddToHistory | app.py:988-1002 | the button sits under the `if ai_report` of app.py:912, so without a report nothing is added; with one, the snapshot of the session heads the history, the older entries follow, and nothing else changes |
| Session.LoadRestoresAdded | app.py:1085-1090 | with a report, loading the entry just added restores the draft, patient information, report, notes and final flag, but not the report date |
| Session.DeleteFromHistory | app.py:1095-1096 | deleting succeeds exactly for an entry in the history, raises `ValueError` otherwise, and cuts out the first equal entry, the others keeping their order; nothing else changes |
| Session.DeleteUndoesAdd | app.py:1096 | with a report, deleting the entry just added gives back the session as it was |
| Session.AddedReportListedFirst | app.py:990-1002 | with a report, the report just added heads the page its author sees |
| Session.ClearHistory | app.py:1111-1113 | an administrator's clear empties the history, anyone else's leaves it; nothing else changes |
| Session.ClearedHistoryStartsOver | app.py:1111-1113 | after an administrator clears the history nobody is shown a report, and the next report added is the only entry |
| Export.LineBlockClassifies | app.py:476-481 | a blank line gives nothing; a stripped line starting with `-` or `*` gives a bullet whose text is that line with exactly its leading run of `-`, `*` and spaces removed; any other line gives its stripped form as a paragraph |
| Export.PlainBlocksNoHeadings | app.py:482-485 | a report without the technique marker gives no headings |
| Export.PlainBlocksAreLines | app.py:482-485 | without the technique marker, the blocks are exactly the stripped non-blank lines as paragraphs, in line order: the `k`-th block is the line with `k` blocks before it, and every such line has its paragraph there |
| Export.ReportOnlySubheadings | app.py:469-485 | every heading the report body can hold is a level-2 heading, so the body never adds a top-level section |
| Export.AsWrittenBodyHasNoHeadings | app.py:470-474 | no piece of `split('**')` can end with `:**`, so the report body never gets a section heading |
| Export.Table | app.py:434-457 | filling a table of `n` rows (header included) succeeds exactly when the data fits below the header and fails with `IndexError` otherwise |
| Export.ExportAsWrittenAlwaysFails | app.py:434-457 | with the six rows the source creates, the six data rows overflow the table, so every export raises `IndexError` |
| Export.ExportLayout | app.py:419-491 | the corrected export always succeeds, and the document is: title, "FINAL REPORT" exactly when final, patient-information heading, header row, the six patient rows in order; the clinical history heading and text exactly when there is a history; a page break, the REPORT heading and the report's blocks, which hold only level-2 headings; and last, exactly when there are notes, a page break, the reviewer-notes heading and the notes |
| Generated.GeneratedFindingsVerbatim | app.py:886-888 | when the first 500 characters of the draft hold no `**`, the generated report splits on `**` into seven pieces, the findings piece being those 500 characters verbatim |
| Generated.RenderedHeadings | app.py:470-481 | with `:` as the heading marker, a report rendered from well-formed sections is laid out with exactly its section names as headings, in order |
| Generated.GeneratedReportHeadings | app.py:470-481 | with `:` as the heading marker and no `**` in the first 500 characters of the draft, the generated report exports with the headings TECHNIQUE, FINDINGS, IMPRESSION |
| Generated.GeneratedReportAsWrittenHasNoHeadings | app.py:470-474 | as written, the generated report exports with no section heading at all |

## Left out

- Streamlit widgets, layout, messages, `st.rerun` and the page flow are left out. They are presentation only. The buttons are the transition functions of `Session` and `Library`.
- JSON persistence and the audit log (`load_data`, `save_data`, `log_audit_event`, configuration and user files) are file I/O. Stores are values passed in and returned.
- Login is left out. It compares SHA-256 digests, a foreign library call.
- DICOM metadata (`pydicom`) and CSV parsing (`pandas`) are foreign libraries. A batch row is a given list of column/value pairs, and `str(value)` is taken as already applied.
- python-docx styling is left out, only the block sequence is modelled: margins, fonts, colours, alignment, the page header, the watermark and the footer. The footer's timestamp also comes from the clock.
- The auto-save timer and "Save Draft" depend on wall-clock time.
- Statistics, the patient form, branding settings, the peer-review text box and download buttons only move widget values into the session.
- The dictation JavaScript is not modelled; the dictated text arrives as a parameter of `Session.Dictate`.
- Recommender.TopByScore: the order among templates with equal scores is left open. The source's order follows Python's set iteration order, which depends on string hashing.
- CriticalFindings.CheckCriticalFindings and Recommender.Recommend take the modality and the limit as parameters. The page only ever uses the defaults, `modality="MRI"` (app.py:266, called at app.py:862) and `limit=3` (app.py:300, called at app.py:725); the parameters generalize these defaults.
- Recommender.Recommend: a negative `limit` is not modelled (`limit` is a natural number). Python's `[:limit]` with a negative limit would drop names from the end.
- Text.Lower: only ASCII letters are case-mapped, and `\w` in the tokenizer is taken as ASCII letters, digits and `_`. Python's Unicode case mapping and Unicode word characters are not modelled.
- Text.Upper and Batch.Placeholder: upper-casing is ASCII-only too. Python's `'ß'.upper()` is `"SS"`, so the length claim of Placeholder (`|p| == |col| + 2`) holds only for column names that Python upper-cases one character to one.
- Library.Save: the source appends to the category list after storing the template. With an unknown category it would have stored the template before raising; the model returns the error without the partial store. The selectbox only offers existing categories, so this path cannot be reached from the page.
- Session.LoadFromHistory: the source assigns fields one at a time. An entry missing `patient_info` or `ai_report` would leave the draft (and patient information) already replaced when the `KeyError` is raised; the model returns the error without the partial assignment.
- Session.Generate: the report date and timestamp are parameters standing for the two `datetime.now()` readings.
- Generated.GeneratedFindingsVerbatim is stated only for drafts whose first 500 characters hold no `**`. A draft that holds `**` is cut into further pieces by `split('**')`, so the findings are no longer one piece.
- Generated.GeneratedReportHeadings is stated only for drafts whose first 500 characters hold no `**`. Such a draft can add pieces of its own, and with the `:` marker a piece of the draft that ends with `:` would become a heading too.
- History.Entry, Session.Snapshot, History.RemoveFirst and Session.LoadRestoresAdded treat entries as values. In the source, a history entry holds the session's own `patient_info` dict (app.py:995), and a loaded entry's dict becomes the session's (app.py:1087). The DICOM auto-fill's `update` (app.py:684) therefore also changes a stored entry in place, and the model does not have this aliasing. `list.remove` also compares dicts without regard to key order, while two `Dict` values with the same items in a different order are different entries in the model.
- Export.ExportLayout is stated for the corrected export, `Export.Export`: seven table rows instead of six, and `:` instead of `:**` as the heading marker. The as-written export is covered by Export.ExportAsWrittenAlwaysFails and Generated.GeneratedReportAsWrittenHasNoHeadings.

## Findings

| source | as written | input that shows it | evidently intended | confidence | as-written member | corrected member |
|---|---|---|---|---|---|---|
| app.py:473-474 | a piece of `ai_report.split('**')` becomes a level-2 heading when it ends with `:**` | any report, e.g. the generated one: no piece of a split on `**` can contain `**`, so none ends with `:**` and TECHNIQUE, FINDINGS and IMPRESSION come out as plain paragraphs | pieces ending with `:` (the `**NAME:**` markers) become headings | high (not executed) | Generated.GeneratedReportAsWrittenHasNoHeadings | Generated.GeneratedReportHeadings |
| app.py:767-771 | delete removes only the first occurrence of the name from each category list | save "A" into Brain twice, then delete "A": Brain still lists "A", and loading it raises `KeyError` | every occurrence is removed, so the category lists name only saved templates | high (not executed) | Library.DeleteAsWrittenLeavesStaleName | Library.DeleteKeepsConsistent |
| app.py:434-457 | `add_table(rows=6, cols=2)`, then a header row and six data rows written to `table.rows[1..6]` | any export: `table.rows[6]` is past the end of a six-row table and raises `IndexError`; since the draft download builds the document whenever there is a report (app.py:940), the page stops there before "Add to History" and the history list | seven rows: the header plus the six patient fields | high (not executed) | Export.ExportAsWrittenAlwaysFails | Export.ExportLayout |

=== FILE: batch.dfy ===
/**
  The placeholder loop of `process_batch`: for every patient row, each
  column's placeholder `[COLUMN]` in the template is replaced by the row's
  value, column after column in the order of the file's header.
 */
module Batch {
  import opened Common
  import opened Text
  import opened Dicts

  /** One CSV row: the header's columns in order, each with its value as text. */
  type Row = Dict<string>

  datatype BatchResult = BatchResult(patientId: string, patientName: string, report: string)

  /** The default for a missing identifying column. */
  const Unknown: string := "Unknown"

  /** `f"[{col.upper()}]"`. */
  function Placeholder(col: string): (p: string)
    ensures |p| == |col| + 2 && p[0] == '[' && p[|p| - 1] == ']'
    ensures p[1..|p| - 1] == Upper(col)
  {
    "[" + Upper(col) + "]"
  }

  /** `report = report.replace(placeholder, str(row[col]))` for each column in turn. */
  function FillRow(template: string, row: Row): string
    decreases |row|
  {
    if |row| == 0 then template
    else FillRow(Replace(template, Placeholder(row[0].key), row[0].value), row[1..])
  }

  /** A template holding none of the row's placeholders comes back unchanged. */
  lemma {:induction false} FillRowWithoutPlaceholders(template: string, row: Row)
    requires forall i :: 0 <= i < |row| ==> !Contains(template, Placeholder(row[i].key))
    ensures FillRow(template, row) == template
    decreases |row|
  {
    if |row| > 0 {
      ReplaceAbsent(template, Placeholder(row[0].key), row[0].value);
      forall i | 0 <= i < |row[1..]|
        ensures !Contains(template, Placeholder(row[1..][i].key))
      {
        assert row[1..][i] == row[i + 1];
      }
      FillRowWithoutPlaceholders(template, row[1..]);
    }
  }

  /**
    One column fills every occurrence of its placeholder: the template is cut
    at each `[COLUMN]` and the pieces are joined with the value.
   */
  lemma FillOneColumn(template: string, col: string, value: string)
    ensures FillRow(template, [Item(col, value)]) == Join(SplitOn(template, Placeholder(col)), value)
  {
    ReplaceIsJoinOfSplit(template, Placeholder(col), value);
    assert [Item(col, value)][1..] == [];
  }

  /** Filling column by column: the row splits into any two parts filled one after the other. */
  lemma {:induction false} FillRowAppend(template: string, a: Row, b: Row)
    ensures FillRow(template, a + b) == FillRow(FillRow(template, a), b)
    decreases |a|
  {
    if |a| > 0 {
      assert (a + b)[0] == a[0];
      assert (a + b)[1..] == a[1..] + b;
      FillRowAppend(Replace(template, Placeholder(a[0].key), a[0].value), a[1..], b);
    } else {
      assert a + b == b;
    }
  }

  /** The entry `process_batch` makes for one row. */
  function ProcessRow(row: Row, template: string): (r: BatchResult)
    ensures HasKey(row, "PatientID") ==> exists i :: 0 <= i < |row| && row[i] == Item("PatientID", r.patientId)
    ensures !HasKey(row, "PatientID") ==> r.patientId == Unknown
    ensures HasKey(row, "PatientName") ==> exists i :: 0 <= i < |row| && row[i] == Item("PatientName", r.patientName)
    ensures !HasKey(row, "PatientName") ==> r.patientName == Unknown
  {
    BatchResult(
      Get(row, "PatientID").GetOr(Unknown),
      Get(row, "PatientName").GetOr(Unknown),
      FillRow(template, row))
  }

  /** `process_batch` once the file is parsed: one result per row, in row order. */
  method ProcessBatch(rows: seq<Row>, template: string) returns (results: seq<BatchResult>)
    ensures |results| == |rows|
    ensures forall i :: 0 <= i < |rows| ==> results[i] == ProcessRow(rows[i], template)
  {
    results := [];
    for i := 0 to |rows|
      invariant |results| == i
      invariant forall k :: 0 <= k < i ==> results[k] == ProcessRow(rows[k], template)
    {
      var row := rows[i];
      var report := template;
      for c := 0 to |row|
        invariant FillRow(report, row[c..]) == FillRow(template, row)
      {
        assert row[c..][1..] == row[c + 1..];
        report := Replace(report, Placeholder(row[c].key), row[c].value);
      }
      assert row[|row|..] == [];
      results := results + [BatchResult(Get(row, "PatientID").GetOr(Unknown), Get(row, "PatientName").GetOr(Unknown), report)];
    }
  }
}

=== FILE: common.dfy ===
/**
  Shared vocabulary of the model: optional values (Python's `dict.get` with a
  default), the exceptions the modelled code can raise, and distinctness of
  the elements of a list.
 */
module Common {

  datatype Option<T> = None | Some(value: T) {
    /** Python's `d.get(key, default)` once the lookup has been made. */
    function GetOr(default: T): T {
      match this
      case Some(v) => v
      case None => default
    }
  }

  /** The exceptions raised on the error paths of the modelled code. */
  datatype Error =
    | KeyError(key: string)  // `d[k]` or `del d[k]` on a missing key
    | ValueError             // `list.remove(x)` when `x` is absent
    | IndexError             // a row index past the end of a table

  datatype Result<T> = Ok(value: T) | Err(error: Error)

  predicate Distinct<T(==)>(s: seq<T>) {
    forall i, j :: 0 <= i < j < |s| ==> s[i] != s[j]
  }
}

=== FILE: critical.dfy ===
/**
  Critical-finding detection: `CRITICAL_PATTERNS` and
  `check_critical_findings_advanced`. Every pattern keyword is looked up as a
  plain substring of the lower-cased text; hits come out in region order,
  then pattern order, exactly as the table is declared.
 */
module CriticalFindings {
  import opened Text

  datatype Severity = Medium | High | Critical

  datatype Pattern = Pattern(keyword: string, severity: Severity, action: string)

  /** One body region of the table with its patterns in declaration order. */
  datatype Region = Region(name: string, patterns: seq<Pattern>)

  /** One element of the result list. */
  datatype Finding = Finding(category: string, finding: string, severity: Severity, action: string, modality: string)

  const CriticalPatterns: seq<Region> := [
    Region("Brain", [
      Pattern("acute infarct", High, "Immediate neurology consult"),
      Pattern("large mass", High, "Neurosurgery referral"),
      Pattern("hemorrhage", Critical, "STAT neurosurgery"),
      Pattern("herniation", Critical, "Emergency neurosurgery"),
      Pattern("abscess", High, "Infectious disease consult"),
      Pattern("hydrocephalus", High, "Neurosurgery consult"),
      Pattern("child abuse", Critical, "Legal/Child protection"),
      Pattern("aneurysm rupture", Critical, "Neurointerventional STAT")
    ]),
    Region("Spine", [
      Pattern("cord compression", Critical, "Emergency neurosurgery"),
      Pattern("fracture dislocation", Critical, "Spine surgery STAT"),
      Pattern("epidural abscess", High, "Infectious disease + surgery"),
      Pattern("cauda equina", Critical, "Emergency decompression")
    ]),
    Region("Chest", [
      Pattern("aortic dissection", Critical, "Cardiothoracic surgery STAT"),
      Pattern("pneumothorax", High, "Chest tube assessment"),
      Pattern("pulmonary embolism", High, "Anticoagulation/Vascular"),
      Pattern("mediastinal mass", Medium, "Oncology referral")
    ]),
    Region("Abdomen", [
      Pattern("bowel perforation", Critical, "General surgery STAT"),
      Pattern("aortic aneurysm", High, "Vascular surgery"),
      Pattern("appendicitis", High, "Surgical consult"),
      Pattern("obstructive uropathy", High, "Urology consult")
    ])
  ]

  // ---------------------------------------------------------------------------
  // The reference view: the table flattened, filtered, then reported
  // ---------------------------------------------------------------------------

  /** A table row together with the name of the region it is declared under. */
  datatype Entry = Entry(region: string, pattern: Pattern)

  function EntriesOf(name: string, ps: seq<Pattern>): (es: seq<Entry>)
    ensures |es| == |ps|
    ensures forall k :: 0 <= k < |ps| ==> es[k] == Entry(name, ps[k])
  {
    if |ps| == 0 then [] else [Entry(name, ps[0])] + EntriesOf(name, ps[1..])
  }

  /** The whole table as one list, region by region, in declaration order. */
  function Flatten(regions: seq<Region>): seq<Entry>
  {
    if |regions| == 0 then []
    else EntriesOf(regions[0].name, regions[0].patterns) + Flatten(regions[1..])
  }

  lemma {:induction false} FlattenMembership(regions: seq<Region>, e: Entry)
    ensures e in Flatten(regions) <==>
            exists k :: 0 <= k < |regions| && regions[k].name == e.region && e.pattern in regions[k].patterns
  {
    if |regions| > 0 {
      FlattenMembership(regions[1..], e);
      var here := EntriesOf(regions[0].name, regions[0].patterns);
      assert e in here <==> regions[0].name == e.region && e.pattern in regions[0].patterns;
      if e in Flatten(regions[1..]) {
        var k :| 0 <= k < |regions[1..]| && regions[1..][k].name == e.region && e.pattern in regions[1..][k].patterns;
        assert regions[k + 1] == regions[1..][k];
      }
      if exists k :: 0 <= k < |regions| && regions[k].name == e.region && e.pattern in regions[k].patterns {
        var k :| 0 <= k < |regions| && regions[k].name == e.region && e.pattern in regions[k].patterns;
        if k > 0 {
          assert regions[1..][k - 1] == regions[k];
        }
      }
    }
  }

  predicate Hit(lower: string, e: Entry) {
    Contains(lower, e.pattern.keyword)
  }

  /** The rows whose keyword occurs in `lower`, in table order. */
  function Selected(es: seq<Entry>, lower: string): (r: seq<Entry>)
    ensures forall e :: e in r <==> e in es && Hit(lower, e)
    ensures |r| <= |es|
  {
    if |es| == 0 then []
    else (if Hit(lower, es[0]) then [es[0]] else []) + Selected(es[1..], lower)
  }

  function Report(e: Entry, modality: string): Finding {
    Finding(e.region, e.pattern.keyword, e.pattern.severity, e.pattern.action, modality)
  }

  function Reports(es: seq<Entry>, modality: string): (r: seq<Finding>)
    ensures |r| == |es|
    ensures forall k :: 0 <= k < |es| ==> r[k] == Report(es[k], modality)
  {
    if |es| == 0 then [] else [Report(es[0], modality)] + Reports(es[1..], modality)
  }

  // ---------------------------------------------------------------------------
  // The scan as the source writes it: two nested loops
  // ---------------------------------------------------------------------------

  function ScanPatterns(name: string, ps: seq<Pattern>, lower: string, modality: string): seq<Finding>
  {
    if |ps| == 0 then []
    else
      (if Contains(lower, ps[0].keyword)
       then [Finding(name, ps[0].keyword, ps[0].severity, ps[0].action, modality)]
       else [])
      + ScanPatterns(name, ps[1..], lower, modality)
  }

  function ScanRegions(regions: seq<Region>, lower: string, modality: string): seq<Finding>
  {
    if |regions| == 0 then []
    else ScanPatterns(regions[0].name, regions[0].patterns, lower, modality)
         + ScanRegions(regions[1..], lower, modality)
  }

  lemma {:induction false} SelectedAppend(a: seq<Entry>, b: seq<Entry>, lower: string)
    ensures Selected(a + b, lower) == Selected(a, lower) + Selected(b, lower)
  {
    if |a| > 0 {
      assert (a + b)[1..] == a[1..] + b;
      SelectedAppend(a[1..], b, lower);
    } else {
      assert a + b == b;
    }
  }

  lemma {:induction false} ReportsAppend(a: seq<Entry>, b: seq<Entry>, modality: string)
    ensures Reports(a + b, modality) == Reports(a, modality) + Reports(b, modality)
  {
  }

  lemma {:induction false} ScanPatternsIsFilter(name: string, ps: seq<Pattern>, lower: string, modality: string)
    ensures ScanPatterns(name, ps, lower, modality) == Reports(Selected(EntriesOf(name, ps), lower), modality)
  {
    if |ps| > 0 {
      var es := EntriesOf(name, ps);
      assert es[1..] == EntriesOf(name, ps[1..]);
      ScanPatternsIsFilter(name, ps[1..], lower, modality);
      var head := if Hit(lower, es[0]) then [es[0]] else [];
      assert Selected(es, lower) == head + Selected(es[1..], lower);
      ReportsAppend(head, Selected(es[1..], lower), modality);
    }
  }

  /**
    The nested scan reports exactly the table rows whose keyword occurs in
    the text, in table order: region by region, pattern by pattern.
   */
  lemma {:induction false} ScanIsFilteredTable(regions: seq<Region>, lower: string, modality: string)
    ensures ScanRegions(regions, lower, modality) == Reports(Selected(Flatten(regions), lower), modality)
  {
    if |regions| > 0 {
      var here := EntriesOf(regions[0].name, regions[0].patterns);
      ScanPatternsIsFilter(regions[0].name, regions[0].patterns, lower, modality);
      ScanIsFilteredTable(regions[1..], lower, modality);
      SelectedAppend(here, Flatten(regions[1..]), lower);
      ReportsAppend(Selected(here, lower), Selected(Flatten(regions[1..]), lower), modality);
    }
  }

  /**
    `check_critical_findings_advanced(text, modality)`: one finding for each
    table row whose keyword is a substring of `text.lower()` and for no
    other row, every one tagged with `modality`, and never more than the
    table holds.
   */
  function CheckCriticalFindings(text: string, modality: string): (r: seq<Finding>)
    ensures forall f :: f in r <==>
      exists e :: e in Flatten(CriticalPatterns) && Contains(Lower(text), e.pattern.keyword) && f == Report(e, modality)
    ensures forall f :: f in r ==> f.modality == modality
    ensures |r| <= |Flatten(CriticalPatterns)|
  {
    var lower := Lower(text);
    ScanIsFilteredTable(CriticalPatterns, lower, modality);
    var sel := Selected(Flatten(CriticalPatterns), lower);
    assert forall f :: f in Reports(sel, modality) <==> exists e :: e in sel && f == Report(e, modality) by {
      forall f | f in Reports(sel, modality)
        ensures exists e :: e in sel && f == Report(e, modality)
      {
        var k :| 0 <= k < |sel| && Reports(sel, modality)[k] == f;
        assert sel[k] in sel;
      }
    }
    ScanRegions(CriticalPatterns, lower, modality)
  }
}

=== FILE: dict.dfy ===
/**
  Python's `dict` with string keys, as the application uses it for saved
  templates, template categories, patient information and batch rows: an
  association list whose keys are distinct and whose order is the order in
  which keys were first inserted, which is the order Python iterates in.
 */
module Dicts {
  import opened Common

  datatype Item<V> = Item(key: string, value: V)

  type Dict<V> = seq<Item<V>>

  function Keys<V>(d: Dict<V>): (ks: seq<string>)
    ensures |ks| == |d|
    ensures forall i :: 0 <= i < |d| ==> ks[i] == d[i].key
  {
    if |d| == 0 then [] else [d[0].key] + Keys(d[1..])
  }

  /** No key appears twice. */
  predicate Valid<V>(d: Dict<V>) {
    forall i, j :: 0 <= i < j < |d| ==> d[i].key != d[j].key
  }

  predicate HasKey<V>(d: Dict<V>, k: string) {
    exists i :: 0 <= i < |d| && d[i].key == k
  }

  /** `d.get(k)`: the value stored under `k`, if any. */
  function Get<V>(d: Dict<V>, k: string): (r: Option<V>)
    ensures r.Some? <==> HasKey(d, k)
    ensures r.Some? ==> exists i :: 0 <= i < |d| && d[i] == Item(k, r.value)
  {
    if |d| == 0 then None
    else if d[0].key == k then Some(d[0].value)
    else
      var r := Get(d[1..], k);
      assert HasKey(d, k) ==> HasKey(d[1..], k) by {
        if HasKey(d, k) {
          var i :| 0 <= i < |d| && d[i].key == k;
          assert d[1..][i - 1] == d[i];
        }
      }
      assert r.Some? ==> exists i :: 0 <= i < |d| && d[i] == Item(k, r.value) by {
        if r.Some? {
          var i :| 0 <= i < |d[1..]| && d[1..][i] == Item(k, r.value);
          assert d[i + 1] == d[1..][i];
        }
      }
      r
  }

  /** `d[k]`: the value under `k`, or the `KeyError` Python raises. */
  function Index<V>(d: Dict<V>, k: string): (r: Result<V>)
    ensures r.Ok? <==> HasKey(d, k)
    ensures r.Err? ==> r.error == KeyError(k)
  {
    match Get(d, k)
    case Some(v) => Ok(v)
    case None => Err(KeyError(k))
  }

  /**
    `d[k] = v`: an existing key keeps its position and gets the new value;
    a new key goes to the end.
   */
  function Put<V>(d: Dict<V>, k: string, v: V): Dict<V>
  {
    if |d| == 0 then [Item(k, v)]
    else if d[0].key == k then [Item(k, v)] + d[1..]
    else [d[0]] + Put(d[1..], k, v)
  }

  /** `del d[k]` once the key is known to be present: every item under `k` goes. */
  function Remove<V>(d: Dict<V>, k: string): Dict<V>
  {
    if |d| == 0 then []
    else (if d[0].key == k then [] else [d[0]]) + Remove(d[1..], k)
  }

  // ---------------------------------------------------------------------------
  // Lookups after updates
  // ---------------------------------------------------------------------------

  /** After `d[k] = v`, `d[k]` is `v` and every other key reads as before. */
  lemma {:induction false} GetPut<V>(d: Dict<V>, k: string, v: V, k': string)
    ensures Get(Put(d, k, v), k') == if k' == k then Some(v) else Get(d, k')
  {
    if |d| > 0 && d[0].key != k {
      GetPut(d[1..], k, v, k');
      assert ([d[0]] + Put(d[1..], k, v))[1..] == Put(d[1..], k, v);
    } else if |d| > 0 {
      assert ([Item(k, v)] + d[1..])[1..] == d[1..];
    }
  }

  /** Assigning to an existing key keeps the key order; a new key is appended. */
  lemma {:induction false} KeysPut<V>(d: Dict<V>, k: string, v: V)
    ensures Keys(Put(d, k, v)) == if k in Keys(d) then Keys(d) else Keys(d) + [k]
  {
    if |d| > 0 {
      KeysPut(d[1..], k, v);
      assert Keys(d) == [d[0].key] + Keys(d[1..]);
      if d[0].key != k {
        assert ([d[0]] + Put(d[1..], k, v))[1..] == Put(d[1..], k, v);
        assert k in Keys(d) <==> k in Keys(d[1..]);
      } else {
        assert ([Item(k, v)] + d[1..])[1..] == d[1..];
      }
    }
  }

  /** After `del d[k]`, `k` is gone and every other key reads as before. */
  lemma {:induction false} GetRemove<V>(d: Dict<V>, k: string, k': string)
    ensures Get(Remove(d, k), k') == if k' == k then None else Get(d, k')
  {
    if |d| > 0 {
      GetRemove(d[1..], k, k');
      var head := if d[0].key == k then [] else [d[0]];
      if d[0].key != k {
        assert (head + Remove(d[1..], k))[1..] == Remove(d[1..], k);
      } else {
        assert head + Remove(d[1..], k) == Remove(d[1..], k);
      }
    }
  }

  /** Deleting a key keeps the remaining keys in their order. */
  lemma {:induction false} KeysRemove<V>(d: Dict<V>, k: string)
    ensures forall k' :: k' in Keys(Remove(d, k)) <==> k' in Keys(d) && k' != k
  {
    if |d| > 0 {
      KeysRemove(d[1..], k);
      var rest := Remove(d[1..], k);
      assert Keys(d) == [d[0].key] + Keys(d[1..]);
      if d[0].key != k {
        assert Remove(d, k) == [d[0]] + rest;
        assert Keys([d[0]] + rest) == [d[0].key] + Keys(rest);
      } else {
        assert Remove(d, k) == rest;
      }
    }
  }

  lemma {:induction false} KeysMembership<V>(d: Dict<V>, k: string)
    ensures k in Keys(d) <==> HasKey(d, k)
  {
    var ks := Keys(d);
    if k in ks {
      var i :| 0 <= i < |ks| && ks[i] == k;
      assert d[i].key == k;
    }
    if HasKey(d, k) {
      var i :| 0 <= i < |d| && d[i].key == k;
      assert ks[i] == k;
    }
  }

  // ---------------------------------------------------------------------------
  // Distinct keys are kept
  // ---------------------------------------------------------------------------

  lemma {:induction false} PutValid<V>(d: Dict<V>, k: string, v: V)
    requires Valid(d)
    ensures Valid(Put(d, k, v))
  {
    KeysPut(d, k, v);
    var r := Put(d, k, v);
    var ks := Keys(d);
    var rs := Keys(r);
    assert forall i, j :: 0 <= i < j < |ks| ==> ks[i] != ks[j];
    forall i, j | 0 <= i < j < |r|
      ensures r[i].key != r[j].key
    {
      assert rs[i] == r[i].key && rs[j] == r[j].key;
      if j < |ks| {
        assert rs[i] == ks[i] && rs[j] == ks[j];
      } else {
        assert rs[j] == k && k !in ks && rs[i] == ks[i];
      }
    }
  }

  lemma {:induction false} RemoveValid<V>(d: Dict<V>, k: string)
    requires Valid(d)
    ensures Valid(Remove(d, k))
  {
    if |d| > 0 {
      RemoveValid(d[1..], k);
      var rest := Remove(d[1..], k);
      if d[0].key != k {
        KeysRemove(d[1..], k);
        var r := [d[0]] + rest;
        forall i, j | 0 <= i < j < |r|
          ensures r[i].key != r[j].key
        {
          assert r[j] == rest[j - 1];
          if i == 0 {
            assert Keys(rest)[j - 1] == rest[j - 1].key;
            assert rest[j - 1].key in Keys(d[1..]);
            var q :| 0 <= q < |d[1..]| && Keys(d[1..])[q] == rest[j - 1].key;
            assert d[q + 1].key == rest[j - 1].key;
          } else {
            assert r[i] == rest[i - 1];
          }
        }
      }
    }
  }

  /** In a dictionary with distinct keys, `Get` finds the item at a position. */
  lemma GetFindsItem<V>(d: Dict<V>, i: nat)
    requires Valid(d) && i < |d|
    ensures Get(d, d[i].key) == Some(d[i].value)
  {
    var r := Get(d, d[i].key);
    var j :| 0 <= j < |d| && d[j] == Item(d[i].key, r.value);
    assert i == j;
  }
}

=== FILE: differential.dfy ===
/**
  The differential-diagnosis generator: `DIFFERENTIAL_DATABASE` and
  `generate_differential`. A group fires when one of the `_`-separated
  fragments of its key occurs in the lower-cased text; the entries of every
  fired group are pooled in table order, de-duplicated by diagnosis keeping
  the first, and stably sorted High, Medium, Low. There is no length cap.
 */
module Differentials {
  import opened Common
  import opened Text

  datatype Confidence = High | Medium | Low

  datatype Candidate = Candidate(diagnosis: string, confidence: Confidence, features: string)

  /** A keyed group of candidates, entries in declaration order. */
  datatype Group = Group(key: string, entries: seq<Candidate>)

  const DifferentialDatabase: seq<Group> := [
    Group("brain_lesion_enhancing", [
      Candidate("Meningioma", High, "Dural-based, homogeneous enhancement, dural tail"),
      Candidate("Metastasis", High, "Multiple, at gray-white junction, edema"),
      Candidate("Glioblastoma", Medium, "Irregular rim enhancement, central necrosis"),
      Candidate("Lymphoma", Medium, "Periventricular, homogeneous enhancement"),
      Candidate("Abscess", Low, "Ring enhancement, restricted diffusion")
    ]),
    Group("white_matter_hyperintensities", [
      Candidate("Microvascular ischemia", High, "Periventricular, punctate, age-appropriate"),
      Candidate("Multiple Sclerosis", Medium, "Ovoid, perivenular, Dawson's fingers"),
      Candidate("Vasculitis", Low, "Multiple territories, enhancement"),
      Candidate("CADASIL", Low, "Anterior temporal lobe, external capsule")
    ]),
    Group("spinal_cord_lesion", [
      Candidate("Multiple Sclerosis", High, "Short segment, peripheral"),
      Candidate("NMO spectrum", Medium, "Long segment, central"),
      Candidate("Infarction", Medium, "Acute, anterior cord"),
      Candidate("Tumor", Low, "Expansile, enhancement")
    ])
  ]

  /** The sort key of the source: High 0, Medium 1, Low 2. */
  function Rank(c: Confidence): nat {
    match c
    case High => 0
    case Medium => 1
    case Low => 2
  }

  // ---------------------------------------------------------------------------
  // Which groups fire, and the pooled candidates
  // ---------------------------------------------------------------------------

  /** The trigger fragments of a group: its key split on `_`. */
  function Fragments(g: Group): seq<string> {
    SplitOn(g.key, "_")
  }

  predicate Fires(g: Group, lower: string) {
    exists f :: f in Fragments(g) && Contains(lower, f)
  }

  /** All entries of the fired groups, group after group in table order. */
  function Collect(groups: seq<Group>, lower: string): seq<Candidate>
  {
    if |groups| == 0 then []
    else
      var last := groups[|groups| - 1];
      Collect(groups[..|groups| - 1], lower) + (if Fires(last, lower) then last.entries else [])
  }

  /** A candidate is pooled exactly when it is an entry of some fired group. */
  lemma {:induction false} CollectMembership(groups: seq<Group>, lower: string, x: Candidate)
    ensures x in Collect(groups, lower) <==>
            exists k :: 0 <= k < |groups| && Fires(groups[k], lower) && x in groups[k].entries
  {
    if |groups| > 0 {
      var n := |groups| - 1;
      var init := groups[..n];
      CollectMembership(init, lower, x);
      assert forall k :: 0 <= k < n ==> init[k] == groups[k];
      assert Collect(groups, lower) ==
        Collect(init, lower) + (if Fires(groups[n], lower) then groups[n].entries else []);
    }
  }

  // ---------------------------------------------------------------------------
  // De-duplication by diagnosis, keeping the first
  // ---------------------------------------------------------------------------

  function Diagnoses(s: seq<Candidate>): set<string> {
    set x | x in s :: x.diagnosis
  }

  predicate UniqueDiagnoses(s: seq<Candidate>) {
    forall i, j :: 0 <= i < j < |s| ==> s[i].diagnosis != s[j].diagnosis
  }

  /** The position of the first candidate with diagnosis `d`. */
  function FirstIndexOf(s: seq<Candidate>, d: string): (k: nat)
    requires d in Diagnoses(s)
    ensures k < |s| && s[k].diagnosis == d
    ensures forall j :: 0 <= j < k ==> s[j].diagnosis != d
  {
    if s[0].diagnosis == d then 0
    else
      assert d in Diagnoses(s[1..]) by {
        var x :| x in s && x.diagnosis == d;
        var i :| 0 <= i < |s| && s[i] == x;
        assert s[1..][i - 1] == x;
      }
      FirstIndexOf(s[1..], d) + 1
  }

  /**
    The de-duplicating loop of the source as a reference function: walk the
    list once, keep a candidate when its diagnosis has not been seen yet.
   */
  function KeepFirsts(s: seq<Candidate>, seen: set<string>): seq<Candidate>
  {
    if |s| == 0 then []
    else if s[0].diagnosis in seen then KeepFirsts(s[1..], seen)
    else [s[0]] + KeepFirsts(s[1..], seen + {s[0].diagnosis})
  }

  lemma DiagnosesCons(s: seq<Candidate>)
    requires |s| > 0
    ensures Diagnoses(s) == {s[0].diagnosis} + Diagnoses(s[1..])
  {
    assert forall x :: x in s <==> x == s[0] || x in s[1..];
  }

  /**
    Keeping the first candidate per diagnosis leaves each unseen diagnosis of
    the input exactly once, and nothing else.
   */
  lemma {:induction false} KeepFirstsDiagnoses(s: seq<Candidate>, seen: set<string>)
    ensures UniqueDiagnoses(KeepFirsts(s, seen))
    ensures Diagnoses(KeepFirsts(s, seen)) == Diagnoses(s) - seen
  {
    if |s| > 0 {
      DiagnosesCons(s);
      var d := s[0].diagnosis;
      if d in seen {
        KeepFirstsDiagnoses(s[1..], seen);
      } else {
        var tail := KeepFirsts(s[1..], seen + {d});
        KeepFirstsDiagnoses(s[1..], seen + {d});
        var r := [s[0]] + tail;
        assert r[1..] == tail;
        DiagnosesCons(r);
        forall i, j | 0 <= i < j < |r|
          ensures r[i].diagnosis != r[j].diagnosis
        {
          assert r[j] == tail[j - 1];
          if i == 0 {
            assert r[j].diagnosis in Diagnoses(tail);
          } else {
            assert r[i] == tail[i - 1];
          }
        }
      }
    }
  }

  /** Away from the head's own diagnosis, first positions move by one when the head is dropped. */
  lemma FirstIndexShift(s: seq<Candidate>, d: string)
    requires |s| > 0 && d in Diagnoses(s[1..]) && d != s[0].diagnosis
    ensures d in Diagnoses(s) && FirstIndexOf(s, d) == FirstIndexOf(s[1..], d) + 1
  {
    DiagnosesCons(s);
  }

  /** Every kept candidate is the first candidate of the input with its diagnosis. */
  lemma {:induction false} KeepFirstsAreFirsts(s: seq<Candidate>, seen: set<string>)
    ensures forall x :: x in KeepFirsts(s, seen) ==>
      x.diagnosis in Diagnoses(s) && x.diagnosis !in seen && x == s[FirstIndexOf(s, x.diagnosis)]
  {
    if |s| > 0 {
      var d := s[0].diagnosis;
      var seen' := if d in seen then seen else seen + {d};
      var tail := KeepFirsts(s[1..], seen');
      KeepFirstsAreFirsts(s[1..], seen');
      forall x | x in tail
        ensures x.diagnosis in Diagnoses(s) && x.diagnosis !in seen && x == s[FirstIndexOf(s, x.diagnosis)]
      {
        FirstIndexShift(s, x.diagnosis);
        assert s[1..][FirstIndexOf(s[1..], x.diagnosis)] == s[FirstIndexOf(s[1..], x.diagnosis) + 1];
      }
      if d !in seen {
        DiagnosesCons(s);
        assert KeepFirsts(s, seen) == [s[0]] + tail;
      }
    }
  }

  /** Diagnosis `a` first occurs in `s` before diagnosis `b` does. */
  predicate FirstBefore(s: seq<Candidate>, a: string, b: string) {
    a in Diagnoses(s) && b in Diagnoses(s) && FirstIndexOf(s, a) < FirstIndexOf(s, b)
  }

  /** `r` lists diagnoses of `s` in the order of their first positions in `s`. */
  predicate InFirstOrder(s: seq<Candidate>, r: seq<Candidate>) {
    forall i, j :: 0 <= i < j < |r| ==> FirstBefore(s, r[i].diagnosis, r[j].diagnosis)
  }

  /** Dropping the head of `s` shifts every other first position by one, so the order is unchanged. */
  lemma InFirstOrderUnderHead(s: seq<Candidate>, tail: seq<Candidate>)
    requires |s| > 0 && InFirstOrder(s[1..], tail)
    requires forall x :: x in tail ==> x.diagnosis != s[0].diagnosis
    ensures InFirstOrder(s, tail)
  {
    forall i, j | 0 <= i < j < |tail|
      ensures FirstBefore(s, tail[i].diagnosis, tail[j].diagnosis)
    {
      assert tail[i] in tail && tail[j] in tail;
      FirstIndexShiftPair(s, tail[i].diagnosis, tail[j].diagnosis);
    }
  }

  lemma FirstIndexShiftPair(s: seq<Candidate>, a: string, b: string)
    requires |s| > 0 && FirstBefore(s[1..], a, b)
    requires a != s[0].diagnosis && b != s[0].diagnosis
    ensures FirstBefore(s, a, b)
  {
    FirstIndexShift(s, a);
    FirstIndexShift(s, b);
  }

  /** The head of `s` has first position 0, so it may lead any list in first order. */
  lemma InFirstOrderCons(s: seq<Candidate>, tail: seq<Candidate>)
    requires |s| > 0 && InFirstOrder(s, tail)
    requires forall x :: x in tail ==> x.diagnosis in Diagnoses(s[1..]) && x.diagnosis != s[0].diagnosis
    ensures InFirstOrder(s, [s[0]] + tail)
  {
    var r := [s[0]] + tail;
    assert s[0].diagnosis in Diagnoses(s) by { assert s[0] in s; }
    assert FirstIndexOf(s, s[0].diagnosis) == 0;
    forall i, j | 0 <= i < j < |r|
      ensures FirstBefore(s, r[i].diagnosis, r[j].diagnosis)
    {
      var b := tail[j - 1];
      assert r[j] == b && b in tail;
      if i == 0 {
        assert r[i] == s[0];
        var k := FirstIndexOf(s, b.diagnosis);
        assert s[k].diagnosis == b.diagnosis != s[0].diagnosis;
      } else {
        assert r[i] == tail[i - 1];
      }
    }
  }

  /** Kept candidates come out in the order of their first positions in the input. */
  lemma {:induction false} KeepFirstsKeepOrder(s: seq<Candidate>, seen: set<string>)
    ensures InFirstOrder(s, KeepFirsts(s, seen))
  {
    if |s| > 0 {
      var d := s[0].diagnosis;
      var seen' := if d in seen then seen else seen + {d};
      var tail := KeepFirsts(s[1..], seen');
      KeepFirstsKeepOrder(s[1..], seen');
      KeepFirstsAreFirsts(s[1..], seen');
      assert forall x :: x in tail ==> x.diagnosis != d;
      InFirstOrderUnderHead(s, tail);
      if d !in seen {
        InFirstOrderCons(s, tail);
      }
    }
  }

  /**
    `unique_results` of the source: a loop over the pooled list with a set of
    diagnoses already seen.
   */
  method DedupByDiagnosis(results: seq<Candidate>) returns (unique: seq<Candidate>)
    ensures unique == KeepFirsts(results, {})
  {
    var seen: set<string> := {};
    unique := [];
    for i := 0 to |results|
      invariant unique + KeepFirsts(results[i..], seen) == KeepFirsts(results, {})
    {
      assert results[i..][1..] == results[i + 1..];
      var key := results[i].diagnosis;
      if key !in seen {
        seen := seen + {key};
        unique := unique + [results[i]];
      }
    }
    assert results[|results|..] == [];
  }

  // ---------------------------------------------------------------------------
  // Stable sort by confidence
  // ---------------------------------------------------------------------------

  function OfConfidence(s: seq<Candidate>, c: Confidence): seq<Candidate>
  {
    if |s| == 0 then []
    else (if s[0].confidence == c then [s[0]] else []) + OfConfidence(s[1..], c)
  }

  /** Filtering by confidence keeps exactly the input candidates of that confidence. */
  lemma {:induction false} OfConfidenceMembership(s: seq<Candidate>, c: Confidence)
    ensures forall x :: x in OfConfidence(s, c) <==> x in s && x.confidence == c
  {
    if |s| > 0 {
      OfConfidenceMembership(s[1..], c);
      assert forall x :: x in s <==> x == s[0] || x in s[1..];
    }
  }

  /**
    `sorted(s, key=rank)`: Python's sort is stable and the key takes three
    values, so the result is the High entries, then the Medium, then the Low,
    each group in input order.
   */
  function SortByConfidence(s: seq<Candidate>): seq<Candidate> {
    OfConfidence(s, High) + OfConfidence(s, Medium) + OfConfidence(s, Low)
  }

  predicate SortedByConfidence(s: seq<Candidate>) {
    forall i, j :: 0 <= i < j < |s| ==> Rank(s[i].confidence) <= Rank(s[j].confidence)
  }

  lemma {:induction false} OfConfidenceAppend(a: seq<Candidate>, b: seq<Candidate>, c: Confidence)
    ensures OfConfidence(a + b, c) == OfConfidence(a, c) + OfConfidence(b, c)
  {
    if |a| > 0 {
      assert (a + b)[1..] == a[1..] + b;
      OfConfidenceAppend(a[1..], b, c);
    } else {
      assert a + b == b;
    }
  }

  /** Filtering twice by one confidence is filtering once; by two different ones leaves nothing. */
  lemma {:induction false} OfConfidenceTwice(s: seq<Candidate>, c: Confidence, c': Confidence)
    ensures OfConfidence(OfConfidence(s, c), c') == if c == c' then OfConfidence(s, c) else []
  {
    if |s| > 0 {
      OfConfidenceTwice(s[1..], c, c');
      var t := OfConfidence(s[1..], c);
      if s[0].confidence == c {
        assert OfConfidence(s, c) == [s[0]] + t;
        assert ([s[0]] + t)[1..] == t;
        assert OfConfidence([s[0]] + t, c') == (if c == c' then [s[0]] else []) + OfConfidence(t, c');
      } else {
        assert OfConfidence(s, c) == t;
      }
    }
  }

  lemma {:induction false} OfConfidenceSplitsMultiset(s: seq<Candidate>)
    ensures multiset(s) == multiset(OfConfidence(s, High)) + multiset(OfConfidence(s, Medium)) + multiset(OfConfidence(s, Low))
  {
    if |s| > 0 {
      var t := s[1..];
      OfConfidenceSplitsMultiset(t);
      assert s == [s[0]] + t;
      var h, m, l := OfConfidence(t, High), OfConfidence(t, Medium), OfConfidence(t, Low);
      match s[0].confidence
      case High =>
        assert OfConfidence(s, High) == [s[0]] + h;
      case Medium =>
        assert OfConfidence(s, Medium) == [s[0]] + m;
      case Low =>
        assert OfConfidence(s, Low) == [s[0]] + l;
    }
  }

  /** The bucket form is ordered by rank. */
  lemma SortByConfidenceIsSorted(s: seq<Candidate>)
    ensures SortedByConfidence(SortByConfidence(s))
  {
    var h, m, l := OfConfidence(s, High), OfConfidence(s, Medium), OfConfidence(s, Low);
    OfConfidenceMembership(s, High);
    OfConfidenceMembership(s, Medium);
    OfConfidenceMembership(s, Low);
    var r := h + m + l;
    forall i, j | 0 <= i < j < |r|
      ensures Rank(r[i].confidence) <= Rank(r[j].confidence)
    {
      if i < |h| {
        assert r[i] == h[i] && h[i] in h;
      } else if i < |h| + |m| {
        assert r[i] == m[i - |h|] && m[i - |h|] in m;
        if j < |h| + |m| {
          assert r[j] == m[j - |h|] && m[j - |h|] in m;
        } else {
          assert r[j] == l[j - |h| - |m|] && l[j - |h| - |m|] in l;
        }
      } else {
        assert r[i] == l[i - |h| - |m|] && l[i - |h| - |m|] in l;
        assert r[j] == l[j - |h| - |m|] && l[j - |h| - |m|] in l;
      }
    }
  }

  /**
    The bucket form is a stable sort: ordered by rank, a permutation of its
    input, and within each confidence level the input order is kept.
   */
  lemma SortByConfidenceIsStableSort(s: seq<Candidate>)
    ensures SortedByConfidence(SortByConfidence(s))
    ensures multiset(SortByConfidence(s)) == multiset(s)
    ensures forall c :: OfConfidence(SortByConfidence(s), c) == OfConfidence(s, c)
  {
    SortByConfidenceIsSorted(s);
    OfConfidenceSplitsMultiset(s);
    var h, m, l := OfConfidence(s, High), OfConfidence(s, Medium), OfConfidence(s, Low);
    forall c
      ensures OfConfidence(h + m + l, c) == OfConfidence(s, c)
    {
      OfConfidenceAppend(h + m, l, c);
      OfConfidenceAppend(h, m, c);
      OfConfidenceTwice(s, High, c);
      OfConfidenceTwice(s, Medium, c);
      OfConfidenceTwice(s, Low, c);
    }
  }

  lemma {:induction false} UniqueDiagnosesCount(s: seq<Candidate>)
    requires UniqueDiagnoses(s)
    ensures |Diagnoses(s)| == |s|
  {
    if |s| > 0 {
      DiagnosesCons(s);
      UniqueDiagnosesCount(s[1..]);
      assert s[0].diagnosis !in Diagnoses(s[1..]);
    }
  }

  /** Sorting a list with unique diagnoses keeps them unique. */
  lemma SortKeepsUniqueDiagnoses(s: seq<Candidate>)
    requires UniqueDiagnoses(s)
    ensures UniqueDiagnoses(SortByConfidence(s))
  {
    var r := SortByConfidence(s);
    forall i, j | 0 <= i < j < |r|
      ensures r[i].diagnosis != r[j].diagnosis
    {
      var a, b := r[i], r[j];
      OfConfidenceMembership(s, High);
      OfConfidenceMembership(s, Medium);
      OfConfidenceMembership(s, Low);
      assert a in r && b in r;
      assert a in s && b in s;
      var p :| 0 <= p < |s| && s[p] == a;
      var q :| 0 <= q < |s| && s[q] == b;
      if a.diagnosis == b.diagnosis {
        assert p == q;
        SortedPositionsDiffer(s, i, j);
      }
    }
  }

  /** Two positions of the sorted list never hold the same input element twice when the input has none twice. */
  lemma SortedPositionsDiffer(s: seq<Candidate>, i: nat, j: nat)
    requires UniqueDiagnoses(s)
    requires i < j < |SortByConfidence(s)|
    ensures SortByConfidence(s)[i] != SortByConfidence(s)[j]
  {
    var h, m, l := OfConfidence(s, High), OfConfidence(s, Medium), OfConfidence(s, Low);
    OfConfidenceMembership(s, High);
    OfConfidenceMembership(s, Medium);
    OfConfidenceMembership(s, Low);
    FilterKeepsUnique(s, High);
    FilterKeepsUnique(s, Medium);
    FilterKeepsUnique(s, Low);
    var r := h + m + l;
    if i < |h| && j < |h| {
      assert r[i] == h[i] && r[j] == h[j];
    } else if |h| <= i && j < |h| + |m| {
      assert r[i] == m[i - |h|] && r[j] == m[j - |h|];
    } else if |h| + |m| <= i {
      assert r[i] == l[i - |h| - |m|] && r[j] == l[j - |h| - |m|];
    } else {
      // the two positions lie in different confidence buckets
      assert r[i].confidence != r[j].confidence by {
        if i < |h| {
          assert r[i] in h;
          assert r[j] in m || r[j] in l by {
            assert r[j] == (if j < |h| + |m| then m[j - |h|] else l[j - |h| - |m|]);
          }
        } else {
          assert r[i] == m[i - |h|];
          assert r[j] == l[j - |h| - |m|];
        }
      }
    }
  }

  lemma {:induction false} FilterKeepsUnique(s: seq<Candidate>, c: Confidence)
    requires UniqueDiagnoses(s)
    ensures UniqueDiagnoses(OfConfidence(s, c))
  {
    if |s| > 0 {
      FilterKeepsUnique(s[1..], c);
      OfConfidenceMembership(s[1..], c);
      var tail := OfConfidence(s[1..], c);
      if s[0].confidence == c {
        var r := [s[0]] + tail;
        forall i, j | 0 <= i < j < |r|
          ensures r[i].diagnosis != r[j].diagnosis
        {
          assert r[j] == tail[j - 1] && r[j] in s[1..];
          if i == 0 {
            var q :| 0 <= q < |s[1..]| && s[1..][q] == r[j];
            assert s[q + 1] == r[j];
          } else {
            assert r[i] == tail[i - 1];
          }
        }
      }
    }
  }

  // ---------------------------------------------------------------------------
  // generate_differential
  // ---------------------------------------------------------------------------

  /**
    What the source promises of its output for a given pool of candidates:
    each pooled diagnosis once, as its first pooled entry, stably sorted.
   */
  ghost predicate DifferentialOf(pool: seq<Candidate>, r: seq<Candidate>) {
    && UniqueDiagnoses(r)
    && Diagnoses(r) == Diagnoses(pool)
    && |r| == |Diagnoses(pool)|
    && (forall x :: x in r <==> x in KeepFirsts(pool, {}))
    && (forall x :: x in r ==> x.diagnosis in Diagnoses(pool) && x == pool[FirstIndexOf(pool, x.diagnosis)])
    && SortedByConfidence(r)
    && (forall c :: OfConfidence(r, c) == OfConfidence(KeepFirsts(pool, {}), c))
  }

  lemma DedupThenSortMeetsPromise(pool: seq<Candidate>)
    ensures DifferentialOf(pool, SortByConfidence(KeepFirsts(pool, {})))
  {
    var unique := KeepFirsts(pool, {});
    var r := SortByConfidence(unique);
    assert UniqueDiagnoses(r) by {
      KeepFirstsDiagnoses(pool, {});
      SortKeepsUniqueDiagnoses(unique);
    }
    assert forall x :: x in r <==> x in unique by {
      SortByConfidenceIsStableSort(unique);
      assert forall x :: x in r <==> x in multiset(r);
      assert forall x :: x in unique <==> x in multiset(unique);
    }
    assert Diagnoses(r) == Diagnoses(pool) by {
      KeepFirstsDiagnoses(pool, {});
      assert Diagnoses(r) == Diagnoses(unique);
    }
    assert |r| == |Diagnoses(pool)| by {
      UniqueDiagnosesCount(r);
    }
    assert forall x :: x in r ==> x.diagnosis in Diagnoses(pool) && x == pool[FirstIndexOf(pool, x.diagnosis)] by {
      KeepFirstsAreFirsts(pool, {});
    }
    assert SortedByConfidence(r) && forall c :: OfConfidence(r, c) == OfConfidence(unique, c) by {
      SortByConfidenceIsStableSort(unique);
    }
  }

  /**
    `generate_differential(text)`: every diagnosis of every fired group comes
    out exactly once, as the entry of the first fired group that lists it;
    the list is stably sorted High, Medium, Low and is not truncated.
   */
  method GenerateDifferential(text: string) returns (r: seq<Candidate>)
    ensures var pool := Collect(DifferentialDatabase, Lower(text));
      && UniqueDiagnoses(r)
      && Diagnoses(r) == Diagnoses(pool)
      && |r| == |Diagnoses(pool)|
      && (forall x :: x in r <==> x in KeepFirsts(pool, {}))
      && (forall x :: x in r ==> x.diagnosis in Diagnoses(pool) && x == pool[FirstIndexOf(pool, x.diagnosis)])
      && SortedByConfidence(r)
      && (forall c :: OfConfidence(r, c) == OfConfidence(KeepFirsts(pool, {}), c))
  {
    var results := PoolCandidates(DifferentialDatabase, Lower(text));
    var unique := DedupByDiagnosis(results);
    r := SortByConfidence(unique);
    DedupThenSortMeetsPromise(results);
    assert DifferentialOf(results, r);
  }

  /** The pooling loop of `generate_differential`: the entries of every fired group, in table order. */
  method PoolCandidates(groups: seq<Group>, lower: string) returns (results: seq<Candidate>)
    ensures results == Collect(groups, lower)
  {
    results := [];
    for i := 0 to |groups|
      invariant results == Collect(groups[..i], lower)
    {
      assert groups[..i + 1][..i] == groups[..i];
      var group := groups[i];
      var keywords := SplitOn(group.key, "_");
      if exists keyword :: keyword in keywords && Contains(lower, keyword) {
        results := results + group.entries;
      }
    }
    assert groups[..|groups|] == groups;
  }

  /**
    A candidate whose diagnosis does not occur earlier in the pool is kept,
    and it is the only kept candidate with that diagnosis.
   */
  lemma FirstOccurrenceIsKept(pool: seq<Candidate>, k: nat)
    requires k < |pool|
    requires forall j :: 0 <= j < k ==> pool[j].diagnosis != pool[k].diagnosis
    ensures pool[k] in KeepFirsts(pool, {})
    ensures forall x :: x in KeepFirsts(pool, {}) && x.diagnosis == pool[k].diagnosis ==> x == pool[k]
  {
    var d := pool[k].diagnosis;
    assert d in Diagnoses(pool) by { assert pool[k] in pool; }
    assert FirstIndexOf(pool, d) == k;
    KeepFirstsDiagnoses(pool, {});
    KeepFirstsAreFirsts(pool, {});
    var kept := KeepFirsts(pool, {});
    assert d in Diagnoses(kept);
  }

  /** With the white-matter group firing, the pool is the brain part, the white-matter entries, then the rest. */
  lemma WhiteMatterPool(lower: string)
    requires Fires(DifferentialDatabase[1], lower)
    ensures var db := DifferentialDatabase;
      Collect(db, lower) ==
        Collect(db[..1], lower) + db[1].entries + (if Fires(db[2], lower) then db[2].entries else [])
  {
    var db := DifferentialDatabase;
    assert db[..3][..2] == db[..2] && db[..2][..1] == db[..1];
    assert db[..3] == db;
  }

  /** No brain-lesion entry is a Multiple Sclerosis candidate. */
  lemma BrainPoolLacksMultipleSclerosis(lower: string)
    ensures forall x :: x in Collect(DifferentialDatabase[..1], lower) ==> x.diagnosis != "Multiple Sclerosis"
  {
    var db := DifferentialDatabase;
    assert db[..1][..0] == [];
    assert Collect(db[..1], lower) == if Fires(db[0], lower) then db[0].entries else [];
  }

  /**
    "Multiple Sclerosis" is listed High under spinal_cord_lesion and Medium
    under white_matter_hyperintensities. Whenever the white-matter group
    fires, the earlier group wins: the Medium entry is kept, the High one is
    dropped, whatever else fires.
   */
  lemma MultipleSclerosisKeepsWhiteMatterEntry(lower: string)
    requires Fires(DifferentialDatabase[1], lower)
    ensures DifferentialDatabase[1].entries[1] in KeepFirsts(Collect(DifferentialDatabase, lower), {})
    ensures DifferentialDatabase[2].entries[0] !in KeepFirsts(Collect(DifferentialDatabase, lower), {})
  {
    var db := DifferentialDatabase;
    var rest := if Fires(db[2], lower) then db[2].entries else [];
    WhiteMatterPool(lower);
    BrainPoolLacksMultipleSclerosis(lower);
    SecondEntryWins(Collect(db[..1], lower), db[1].entries, rest);
    assert db[2].entries[0].diagnosis == db[1].entries[1].diagnosis;
    assert db[2].entries[0] != db[1].entries[1];
  }

  /**
    In a pool `a + e + b`, where neither `a` nor `e[0]` carries the diagnosis
    of `e[1]`, the entry `e[1]` is the kept candidate for that diagnosis.
   */
  lemma SecondEntryWins(a: seq<Candidate>, e: seq<Candidate>, b: seq<Candidate>)
    requires |e| >= 2
    requires forall x :: x in a ==> x.diagnosis != e[1].diagnosis
    requires e[0].diagnosis != e[1].diagnosis
    ensures e[1] in KeepFirsts(a + e + b, {})
    ensures forall x :: x in KeepFirsts(a + e + b, {}) && x.diagnosis == e[1].diagnosis ==> x == e[1]
  {
    var pool := a + e + b;
    var k := |a| + 1;
    assert pool[k] == e[1];
    forall j | 0 <= j < k
      ensures pool[j].diagnosis != pool[k].diagnosis
    {
      if j < |a| {
        assert pool[j] == a[j] && a[j] in a;
      } else {
        assert pool[j] == e[0];
      }
    }
    FirstOccurrenceIsKept(pool, k);
  }
}

=== FILE: export.dfy ===
/**
  The layout decisions of `create_branded_word_report`: which blocks the Word
  document holds, in which order. Fonts, colours, margins, the page header,
  the watermark and the footer are styling and are not part of the model.
 */
module Export {
  import opened Common
  import opened Text
  import opened Dicts

  datatype Block =
    | Heading(text: string, level: nat)
    | Para(text: string)
    | Bullet(text: string)
    | PageBreak
    | TableRow(field: string, value: string)

  /** The marker that turns an AI-report section into a sub-heading, as the source tests it. */
  const AsWrittenMarker: string := ":**"

  /** The marker the sections of a generated report actually end with. */
  const HeadingMarker: string := ":"

  /** What `lstrip('-* ')` removes from a bullet line. */
  const BulletMarks: set<char> := {'-', '*', ' '}

  /** The number of rows the source creates for the patient table. */
  const AsWrittenTableRows: nat := 6

  // ---------------------------------------------------------------------------
  // The report body
  // ---------------------------------------------------------------------------

  /** One line of a section: a bullet, a paragraph, or nothing when blank. */
  function LineBlock(line: string): (r: seq<Block>)
    ensures |r| <= 1
  {
    StrippedLineBlock(Strip(line))
  }

  /** The block for a line once it has been stripped. */
  function StrippedLineBlock(l: string): seq<Block> {
    if StartsWith(l, "-") || StartsWith(l, "*") then [Bullet(LStripSet(l, BulletMarks))]
    else if l != "" then [Para(l)]
    else []
  }

  function LineBlocks(lines: seq<string>): seq<Block> {
    if |lines| == 0 then [] else LineBlock(lines[0]) + LineBlocks(lines[1..])
  }

  /** A section of `ai_report.split('**')`: a level-2 heading when it ends with `marker`, else its lines. */
  function SectionBlocks(sec: string, marker: string): seq<Block>
    requires marker != []
  {
    if EndsWith(sec, marker) then [Heading(Strip(Replace(sec, marker, "")), 2)]
    else if Strip(sec) != "" then LineBlocks(SplitOn(Strip(sec), "\n"))
    else []
  }

  function SectionsBlocks(secs: seq<string>, marker: string): seq<Block>
    requires marker != []
  {
    if |secs| == 0 then [] else SectionBlocks(secs[0], marker) + SectionsBlocks(secs[1..], marker)
  }

  /** The plain branch: every non-blank line, stripped, as a paragraph. */
  function PlainBlocks(lines: seq<string>): seq<Block> {
    Paragraphs(StripAll(lines))
  }

  /** Every line stripped of surrounding whitespace, in order. */
  function StripAll(lines: seq<string>): (r: seq<string>)
    ensures |r| == |lines|
    ensures forall i :: 0 <= i < |lines| ==> r[i] == Strip(lines[i])
  {
    if |lines| == 0 then [] else [Strip(lines[0])] + StripAll(lines[1..])
  }

  /** Every non-empty string as a paragraph, in order. */
  function Paragraphs(ls: seq<string>): seq<Block> {
    if |ls| == 0 then [] else (if ls[0] != "" then [Para(ls[0])] else []) + Paragraphs(ls[1..])
  }

  /** The blocks of the REPORT section for a given heading marker. */
  function ReportBlocks(ai: string, marker: string): seq<Block>
    requires marker != []
  {
    if Contains(ai, "**TECHNIQUE:**") then SectionsBlocks(SplitOn(ai, "**"), marker)
    else PlainBlocks(SplitOn(ai, "\n"))
  }

  /**
    How one line of a sectioned report is laid out: a blank line gives
    nothing; a line whose stripped form starts with `-` or `*` gives a bullet
    holding that form without its leading `-`, `*` and spaces; any other line
    gives a paragraph holding its stripped form.
   */
  lemma LineBlockClassifies(line: string)
    ensures LineBlock(line) == [] <==> IsBlank(line)
    ensures !IsBlank(line) ==> |LineBlock(line)| == 1 && Strip(line) != []
    ensures !IsBlank(line) && (Strip(line)[0] == '-' || Strip(line)[0] == '*') ==>
      && LineBlock(line)[0].Bullet?
      && EndsWith(Strip(line), LineBlock(line)[0].text)
      && (LineBlock(line)[0].text == [] || LineBlock(line)[0].text[0] !in BulletMarks)
      && (forall i :: 0 <= i < |Strip(line)| - |LineBlock(line)[0].text| ==> Strip(line)[i] in BulletMarks)
    ensures !IsBlank(line) && Strip(line)[0] != '-' && Strip(line)[0] != '*' ==>
      LineBlock(line) == [Para(Strip(line))]
  {
    StripEmptyIffBlank(line);
    StrippedLineBlockKinds(Strip(line));
  }

  lemma StrippedLineBlockKinds(l: string)
    ensures StrippedLineBlock(l) == [] <==> l == []
    ensures l != [] ==> |StrippedLineBlock(l)| == 1
    ensures l != [] && (l[0] == '-' || l[0] == '*') ==>
      && StrippedLineBlock(l)[0].Bullet?
      && EndsWith(l, StrippedLineBlock(l)[0].text)
      && (StrippedLineBlock(l)[0].text == [] || StrippedLineBlock(l)[0].text[0] !in BulletMarks)
      && (forall i :: 0 <= i < |l| - |StrippedLineBlock(l)[0].text| ==> l[i] in BulletMarks)
    ensures l != [] && l[0] != '-' && l[0] != '*' ==> StrippedLineBlock(l) == [Para(l)]
  {
    if l != [] {
      assert StartsWith(l, "-") <==> l[0] == '-';
      assert StartsWith(l, "*") <==> l[0] == '*';
    }
  }

  predicate NoHeadings(bs: seq<Block>) {
    forall k :: 0 <= k < |bs| ==> !bs[k].Heading?
  }

  /** Only level-2 headings can come out of a report body. */
  predicate OnlySubheadings(bs: seq<Block>) {
    forall k :: 0 <= k < |bs| ==> bs[k].Heading? ==> bs[k].level == 2
  }

  lemma NoHeadingsAppend(a: seq<Block>, b: seq<Block>)
    requires NoHeadings(a) && NoHeadings(b)
    ensures NoHeadings(a + b)
  {
    forall k | 0 <= k < |a + b|
      ensures !(a + b)[k].Heading?
    {
      if k >= |a| {
        assert (a + b)[k] == b[k - |a|];
      }
    }
  }

  lemma OnlySubheadingsAppend(a: seq<Block>, b: seq<Block>)
    requires OnlySubheadings(a) && OnlySubheadings(b)
    ensures OnlySubheadings(a + b)
  {
    forall k | 0 <= k < |a + b| && (a + b)[k].Heading?
      ensures (a + b)[k].level == 2
    {
      if k >= |a| {
        assert (a + b)[k] == b[k - |a|];
      }
    }
  }

  lemma {:induction false} LineBlocksNoHeadings(lines: seq<string>)
    ensures NoHeadings(LineBlocks(lines))
  {
    if |lines| > 0 {
      LineBlocksNoHeadings(lines[1..]);
      LineBlockNoHeadings(lines[0]);
      NoHeadingsAppend(LineBlock(lines[0]), LineBlocks(lines[1..]));
    }
  }

  lemma LineBlockNoHeadings(line: string)
    ensures NoHeadings(LineBlock(line))
  {
    StrippedNoHeadings(Strip(line));
  }

  lemma StrippedNoHeadings(l: string)
    ensures NoHeadings(StrippedLineBlock(l))
  {
    var bs := StrippedLineBlock(l);
    if bs != [] {
      assert bs == [bs[0]] && !bs[0].Heading?;
    }
  }


  lemma PlainBlocksNoHeadings(lines: seq<string>)
    ensures NoHeadings(PlainBlocks(lines))
  {
    ParagraphsNoHeadings(StripAll(lines));
  }

  lemma {:induction false} ParagraphsNoHeadings(ls: seq<string>)
    ensures NoHeadings(Paragraphs(ls))
  {
    if |ls| > 0 {
      ParagraphsNoHeadings(ls[1..]);
      NoHeadingsAppend(if ls[0] != "" then [Para(ls[0])] else [], Paragraphs(ls[1..]));
    }
  }

  lemma {:induction false} ParagraphsAppend(a: seq<string>, b: seq<string>)
    ensures Paragraphs(a + b) == Paragraphs(a) + Paragraphs(b)
  {
    if |a| > 0 {
      ParagraphsAppend(a[1..], b);
      assert (a + b)[0] == a[0] && (a + b)[1..] == a[1..] + b;
    } else {
      assert a + b == b;
    }
  }

  /** The `k`-th block of the plain branch is the paragraph of a line with `k` blocks before it. */
  ghost predicate PlainBlockFromLine(lines: seq<string>, k: nat)
    requires k < |PlainBlocks(lines)|
  {
    exists i :: 0 <= i < |lines| && Strip(lines[i]) != "" && PlainBlocks(lines)[k] == Para(Strip(lines[i]))
                && |PlainBlocks(lines[..i])| == k
  }

  /** Line `i` has its paragraph right after the blocks of the lines before it. */
  ghost predicate PlainLineKept(lines: seq<string>, i: nat)
    requires i < |lines| && Strip(lines[i]) != ""
  {
    |PlainBlocks(lines[..i])| < |PlainBlocks(lines)|
    && PlainBlocks(lines)[|PlainBlocks(lines[..i])|] == Para(Strip(lines[i]))
  }

  /**
    The plain branch lays out paragraphs only: the `k`-th block is the
    stripped form of the line with `k` blocks before it, and every line whose
    stripped form is not empty has its paragraph at that place, so the
    paragraphs come in line order.
   */
  lemma PlainBlocksAreLines(lines: seq<string>)
    ensures forall k :: 0 <= k < |PlainBlocks(lines)| ==> PlainBlockFromLine(lines, k)
    ensures forall i :: 0 <= i < |lines| && Strip(lines[i]) != "" ==> PlainLineKept(lines, i)
  {
    forall k | 0 <= k < |PlainBlocks(lines)|
      ensures PlainBlockFromLine(lines, k)
    {
      PlainBlockAt(lines, k);
    }
    forall i | 0 <= i < |lines| && Strip(lines[i]) != ""
      ensures PlainLineKept(lines, i)
    {
      PlainBlockOf(lines, i);
    }
  }

  lemma PlainBlockAt(lines: seq<string>, k: nat)
    requires k < |PlainBlocks(lines)|
    ensures PlainBlockFromLine(lines, k)
  {
    var s := StripAll(lines);
    ParagraphAt(s, k);
    var i :| 0 <= i < |s| && s[i] != "" && Paragraphs(s)[k] == Para(s[i]) && |Paragraphs(s[..i])| == k;
    StripAllPrefix(lines, i);
    assert PlainBlocks(lines[..i]) == Paragraphs(s[..i]);
    assert s[i] == Strip(lines[i]);
  }

  lemma PlainBlockOf(lines: seq<string>, i: nat)
    requires i < |lines| && Strip(lines[i]) != ""
    ensures PlainLineKept(lines, i)
  {
    var s := StripAll(lines);
    StripAllPrefix(lines, i);
    assert PlainBlocks(lines[..i]) == Paragraphs(s[..i]);
    assert s[i] == Strip(lines[i]);
    ParagraphOf(s, i);
  }

  lemma StripAllPrefix(lines: seq<string>, i: nat)
    requires i <= |lines|
    ensures StripAll(lines[..i]) == StripAll(lines)[..i]
  {
  }

  /** A non-empty string's paragraph sits after the paragraphs of the strings before it. */
  lemma ParagraphOf(ls: seq<string>, i: nat)
    requires i < |ls| && ls[i] != ""
    ensures |Paragraphs(ls[..i])| < |Paragraphs(ls)| && Paragraphs(ls)[|Paragraphs(ls[..i])|] == Para(ls[i])
  {
    assert ls == ls[..i] + ls[i..];
    ParagraphsAppend(ls[..i], ls[i..]);
    assert ls[i..][1..] == ls[i + 1..];
    assert Paragraphs(ls[i..]) == [Para(ls[i])] + Paragraphs(ls[i + 1..]);
  }

  lemma {:induction false} ParagraphAt(ls: seq<string>, k: nat)
    requires k < |Paragraphs(ls)|
    ensures exists i :: 0 <= i < |ls| && ls[i] != "" && Paragraphs(ls)[k] == Para(ls[i]) && |Paragraphs(ls[..i])| == k
  {
    var head := if ls[0] != "" then [Para(ls[0])] else [];
    if k < |head| {
      assert Paragraphs(ls[..0]) == [];
    } else {
      ParagraphAt(ls[1..], k - |head|);
      var i :| 0 <= i < |ls[1..]| && ls[1..][i] != "" && Paragraphs(ls[1..])[k - |head|] == Para(ls[1..][i])
               && |Paragraphs(ls[1..][..i])| == k - |head|;
      assert ls[..i + 1] == [ls[0]] + ls[1..][..i];
      assert ls[..i + 1][1..] == ls[1..][..i];
      assert ls[i + 1] == ls[1..][i];
    }
  }

  lemma SectionOnlySubheadings(sec: string, marker: string)
    requires marker != []
    ensures OnlySubheadings(SectionBlocks(sec, marker))
  {
    if !EndsWith(sec, marker) && Strip(sec) != "" {
      LineBlocksNoHeadings(SplitOn(Strip(sec), "\n"));
    }
  }

  lemma {:induction false} SectionsOnlySubheadings(secs: seq<string>, marker: string)
    requires marker != []
    ensures OnlySubheadings(SectionsBlocks(secs, marker))
  {
    if |secs| > 0 {
      SectionsOnlySubheadings(secs[1..], marker);
      SectionOnlySubheadings(secs[0], marker);
      OnlySubheadingsAppend(SectionBlocks(secs[0], marker), SectionsBlocks(secs[1..], marker));
    }
  }

  lemma ReportOnlySubheadings(ai: string, marker: string)
    requires marker != []
    ensures OnlySubheadings(ReportBlocks(ai, marker))
  {
    if Contains(ai, "**TECHNIQUE:**") {
      SectionsOnlySubheadings(SplitOn(ai, "**"), marker);
    } else {
      PlainBlocksNoHeadings(SplitOn(ai, "\n"));
    }
  }

  /** A piece that ends with `:**` contains `**`. */
  lemma MarkerHoldsSeparator(sec: string)
    requires EndsWith(sec, AsWrittenMarker)
    ensures Contains(sec, "**")
  {
    assert OccursAt(sec, "**", |sec| - 2);
  }

  /** A piece free of `**` never takes the heading branch of the source. */
  lemma SectionWithoutSeparatorHasNoHeadings(sec: string)
    requires !Contains(sec, "**")
    ensures NoHeadings(SectionBlocks(sec, AsWrittenMarker))
  {
    if EndsWith(sec, AsWrittenMarker) {
      MarkerHoldsSeparator(sec);
      assert false;
    }
    if Strip(sec) != "" {
      LineBlocksNoHeadings(SplitOn(Strip(sec), "\n"));
    }
  }

  lemma {:induction false} SectionsWithoutSeparatorHaveNoHeadings(secs: seq<string>)
    requires forall k :: 0 <= k < |secs| ==> !Contains(secs[k], "**")
    ensures NoHeadings(SectionsBlocks(secs, AsWrittenMarker))
  {
    if |secs| > 0 {
      SectionWithoutSeparatorHasNoHeadings(secs[0]);
      SectionsWithoutSeparatorHaveNoHeadings(secs[1..]);
      NoHeadingsAppend(SectionBlocks(secs[0], AsWrittenMarker), SectionsBlocks(secs[1..], AsWrittenMarker));
    }
  }

  /**
    The source's sub-heading branch is dead: no piece of `split('**')` holds
    `**`, so none ends with `:**`, and the body of every report is paragraphs
    and bullets only.
   */
  lemma AsWrittenBodyHasNoHeadings(ai: string)
    ensures NoHeadings(ReportBlocks(ai, AsWrittenMarker))
  {
    if Contains(ai, "**TECHNIQUE:**") {
      SplitOnPartsAvoidSep(ai, "**");
      SectionsWithoutSeparatorHaveNoHeadings(SplitOn(ai, "**"));
    } else {
      PlainBlocksNoHeadings(SplitOn(ai, "\n"));
    }
  }

  // ---------------------------------------------------------------------------
  // The patient table
  // ---------------------------------------------------------------------------

  /** `patient_info.get(key, default)`. */
  function InfoOr(info: Dict<string>, key: string, default: string): string {
    Get(info, key).GetOr(default)
  }

  /** The six field/value pairs written below the table's header row. */
  function PatientRows(info: Dict<string>, reportDate: string): seq<(string, string)> {
    [
      ("Patient Name", InfoOr(info, "name", "Not Provided")),
      ("Patient ID", InfoOr(info, "id", "Not Provided")),
      ("Date of Birth", InfoOr(info, "dob", "Not Provided")),
      ("Age / Sex", InfoOr(info, "age", "N/A") + " / " + InfoOr(info, "sex", "N/A")),
      ("Accession #", InfoOr(info, "accession", "Not Provided")),
      ("Study Date", reportDate)
    ]
  }

  function DataRows(data: seq<(string, string)>): (r: seq<Block>)
    ensures |r| == |data|
    ensures forall i :: 0 <= i < |data| ==> r[i] == TableRow(data[i].0, data[i].1)
  {
    if |data| == 0 then [] else [TableRow(data[0].0, data[0].1)] + DataRows(data[1..])
  }

  function EmptyRows(n: nat): (r: seq<Block>)
    ensures |r| == n
  {
    if n == 0 then [] else [TableRow("", "")] + EmptyRows(n - 1)
  }

  /**
    A table of `rowCount` rows: a header row, then row `i` for the `i`-th pair
    (counting from one). Writing a row past the last raises `IndexError`.
   */
  function Table(rowCount: nat, data: seq<(string, string)>): (r: Result<seq<Block>>)
    ensures r.Ok? <==> |data| < rowCount
    ensures r.Err? ==> r.error == IndexError
    ensures r.Ok? ==> |r.value| == rowCount
  {
    if |data| >= rowCount then Err(IndexError)
    else Ok([TableRow("FIELD", "INFORMATION")] + DataRows(data) + EmptyRows(rowCount - |data| - 1))
  }

  // ---------------------------------------------------------------------------
  // The document
  // ---------------------------------------------------------------------------

  /** The blocks the clinical history adds for a history text: a heading and the text, or nothing. */
  function HistoryPart(history: string): seq<Block> {
    if history != "" then [Heading("CLINICAL HISTORY", 1), Para(history)] else []
  }

  function ClinicalHistoryBlocks(info: Dict<string>): seq<Block> {
    HistoryPart(InfoOr(info, "history", ""))
  }

  function ReviewerNotesBlocks(notes: string): seq<Block> {
    if notes != "" then [PageBreak, Heading("REVIEWER NOTES", 1), Para(notes)] else []
  }

  /** The title, the final banner, and the patient information heading and table. */
  function Front(isFinal: bool, table: seq<Block>): seq<Block> {
    [Heading("RADIOLOGY REPORT", 0)]
    + (if isFinal then [Para("FINAL REPORT")] else [])
    + [Heading("PATIENT INFORMATION", 1)]
    + table
  }

  /** The clinical history, the report body on a new page, and the reviewer notes. */
  function Back(info: Dict<string>, body: seq<Block>, notes: string): seq<Block> {
    ClinicalHistoryBlocks(info)
    + [PageBreak, Heading("REPORT", 1)]
    + body
    + ReviewerNotesBlocks(notes)
  }

  /** The document with a table of `rowCount` rows and section headings detected by `marker`. */
  function Document(ai: string, info: Dict<string>, reportDate: string, isFinal: bool, notes: string,
                    rowCount: nat, marker: string): Result<seq<Block>>
    requires marker != []
  {
    match Table(rowCount, PatientRows(info, reportDate))
    case Err(e) => Err(e)
    case Ok(table) => Ok(Front(isFinal, table) + Back(info, ReportBlocks(ai, marker), notes))
  }

  /** `create_branded_word_report` as written: six table rows, sub-headings on `:**`. */
  function ExportAsWritten(ai: string, info: Dict<string>, reportDate: string, isFinal: bool, notes: string): Result<seq<Block>> {
    Document(ai, info, reportDate, isFinal, notes, AsWrittenTableRows, AsWrittenMarker)
  }

  /** The export with a row for the header and each of the six fields, and sub-headings on `:`. */
  function Export(ai: string, info: Dict<string>, reportDate: string, isFinal: bool, notes: string): Result<seq<Block>> {
    Document(ai, info, reportDate, isFinal, notes, |PatientRows(info, reportDate)| + 1, HeadingMarker)
  }

  /**
    The source's table has six rows, but a header row and six fields need
    seven: writing the sixth field fails, whatever the report holds.
   */
  lemma ExportAsWrittenAlwaysFails(ai: string, info: Dict<string>, reportDate: string, isFinal: bool, notes: string)
    ensures ExportAsWritten(ai, info, reportDate, isFinal, notes) == Err(IndexError)
  {
  }

  /** The front of a document, position by position: `t` is where the patient information heading sits. */
  predicate FrontShape(f: seq<Block>, isFinal: bool, rows: seq<(string, string)>)
    requires |rows| == 6
  {
    var t := if isFinal then 2 else 1;
    && |f| == t + 8
    && f[0] == Heading("RADIOLOGY REPORT", 0)
    && (f[1] == Para("FINAL REPORT") <==> isFinal)
    && f[t] == Heading("PATIENT INFORMATION", 1)
    && f[t + 1] == TableRow("FIELD", "INFORMATION")
    && (forall i :: 0 <= i < 6 ==> f[t + 2 + i] == TableRow(rows[i].0, rows[i].1))
  }

  /**
    The back of a document: the history part, a page break and the REPORT
    heading, the report body, then the notes part (a page break, the
    heading and the notes) exactly when there are notes.
   */
  predicate BackShape(b: seq<Block>, history: string, body: seq<Block>, notes: string) {
    var h := |HistoryPart(history)|;
    var n := if notes != "" then 3 else 0;
    && |b| == h + 2 + |body| + n
    && b[..h] == HistoryPart(history)
    && b[h..h + 2] == [PageBreak, Heading("REPORT", 1)]
    && b[h + 2..|b| - n] == body
    && b[|b| - n..] == (if notes != "" then [PageBreak, Heading("REVIEWER NOTES", 1), Para(notes)] else [])
  }

  lemma FrontLayout(isFinal: bool, info: Dict<string>, reportDate: string)
    ensures Table(7, PatientRows(info, reportDate)).Ok?
    ensures FrontShape(Front(isFinal, Table(7, PatientRows(info, reportDate)).value), isFinal, PatientRows(info, reportDate))
  {
    FrontOfRows(isFinal, PatientRows(info, reportDate));
  }

  lemma FrontOfRows(isFinal: bool, rows: seq<(string, string)>)
    requires |rows| == 6
    ensures Table(7, rows).Ok?
    ensures FrontShape(Front(isFinal, Table(7, rows).value), isFinal, rows)
  {
    var table := Table(7, rows).value;
    var t := if isFinal then 2 else 1;
    var f := Front(isFinal, table);
    assert f[t + 1..] == table;
    forall i | 0 <= i < 6
      ensures f[t + 2 + i] == TableRow(rows[i].0, rows[i].1)
    {
      assert f[t + 2 + i] == table[i + 1] == DataRows(rows)[i];
    }
  }

  lemma BackLayout(info: Dict<string>, body: seq<Block>, notes: string)
    ensures BackShape(Back(info, body, notes), InfoOr(info, "history", ""), body, notes)
  {
    var hs := ClinicalHistoryBlocks(info);
    var ns := ReviewerNotesBlocks(notes);
    var b := hs + [PageBreak, Heading("REPORT", 1)] + body + ns;
    assert b == Back(info, body, notes);
    var h := |hs|;
    assert hs == HistoryPart(InfoOr(info, "history", ""));
    assert b[..h] == hs;
    assert b[h..h + 2] == [PageBreak, Heading("REPORT", 1)];
    assert b[h + 2..|b| - |ns|] == body;
    assert b[|b| - |ns|..] == ns;
  }

  /**
    The layout the export promises: the title, the final banner exactly when
    the report is final, the patient information heading, the table header
    and one row per field; then the clinical history heading and text
    exactly when there is a history; a page break, the REPORT heading and
    the report body; and last, exactly when there are notes, a page break,
    the reviewer-notes heading and the notes.
   */
  predicate LaidOut(d: seq<Block>, isFinal: bool, rows: seq<(string, string)>, history: string,
                    body: seq<Block>, notes: string)
    requires |rows| == 6
  {
    var t := if isFinal then 2 else 1;
    && |d| == t + 8 + |HistoryPart(history)| + 2 + |body| + (if notes != "" then 3 else 0)
    && d[0] == Heading("RADIOLOGY REPORT", 0)
    && (d[1] == Para("FINAL REPORT") <==> isFinal)
    && d[t] == Heading("PATIENT INFORMATION", 1)
    && d[t + 1] == TableRow("FIELD", "INFORMATION")
    && (forall i :: 0 <= i < 6 ==> d[t + 2 + i] == TableRow(rows[i].0, rows[i].1))
    && BackShape(d[t + 8..], history, body, notes)
  }

  lemma FrontThenBack(f: seq<Block>, b: seq<Block>, isFinal: bool, rows: seq<(string, string)>, history: string,
                      body: seq<Block>, notes: string)
    requires |rows| == 6 && FrontShape(f, isFinal, rows) && BackShape(b, history, body, notes)
    ensures LaidOut(f + b, isFinal, rows, history, body, notes)
  {
    var d := f + b;
    forall i | 0 <= i < |f|
      ensures d[i] == f[i]
    {
    }
    assert d[|f|..] == b;
  }

  /** The corrected export always succeeds and has the promised layout. */
  lemma ExportLayout(ai: string, info: Dict<string>, reportDate: string, isFinal: bool, notes: string)
    ensures Export(ai, info, reportDate, isFinal, notes).Ok?
    ensures LaidOut(Export(ai, info, reportDate, isFinal, notes).value, isFinal, PatientRows(info, reportDate),
                    InfoOr(info, "history", ""), ReportBlocks(ai, HeadingMarker), notes)
    ensures OnlySubheadings(ReportBlocks(ai, HeadingMarker))
  {
    var rows := PatientRows(info, reportDate);
    FrontLayout(isFinal, info, reportDate);
    var body := ReportBlocks(ai, HeadingMarker);
    ReportOnlySubheadings(ai, HeadingMarker);
    BackLayout(info, body, notes);
    var f := Front(isFinal, Table(7, rows).value);
    var b := Back(info, body, notes);
    FrontThenBack(f, b, isFinal, rows, InfoOr(info, "history", ""), body, notes);
    assert Export(ai, info, reportDate, isFinal, notes) == Ok(f + b);
  }
}

=== FILE: generated.dfy ===
/**
  The placeholder report "Generate AI Report" writes: three bold-labelled
  sections, the middle one holding the start of the draft. The lemmas follow
  such a report through the export's `split('**')`.
 */
module Generated {
  import opened Text
  import opened Export

  /** One `**NAME:**body` section of a report. */
  datatype Section = Section(name: string, body: string)

  /** How much of the draft the placeholder generator copies into FINDINGS. */
  const FindingsLength: nat := 500

  const TechniqueText: string := " MRI performed as described.\n"
  const ImpressionText: string :=
    " Findings as" + " described" + " above." + " Recommend" + " clinical" + " correlation."

  function Render(secs: seq<Section>): string {
    if |secs| == 0 then "" else "**" + Open(secs[0], Render(secs[1..]))
  }

  /** A section after its opening `**`, followed by `rest`. */
  function Open(sec: Section, rest: string): string {
    (sec.name + ":") + ("**" + (sec.body + rest))
  }

  function GeneratedSections(findings: string): seq<Section> {
    [Section("TECHNIQUE", TechniqueText), Section("FINDINGS", " " + findings + "\n"), Section("IMPRESSION", ImpressionText)]
  }

  /** The placeholder report built from the draft. */
  function GeneratedReport(draft: string): string {
    Render(GeneratedSections(Take(draft, FindingsLength)))
  }

  /** The pieces `split('**')` yields after the leading empty one: each name with its colon, then its body. */
  function Pieces(secs: seq<Section>): (ps: seq<string>)
    ensures |ps| == 2 * |secs|
    ensures forall k :: 0 <= k < |secs| ==> ps[2 * k] == secs[k].name + ":" && ps[2 * k + 1] == secs[k].body
  {
    if |secs| == 0 then [] else [secs[0].name + ":", secs[0].body] + Pieces(secs[1..])
  }

  function Names(secs: seq<Section>): (ns: seq<string>)
    ensures |ns| == |secs|
    ensures forall k :: 0 <= k < |secs| ==> ns[k] == secs[k].name
  {
    if |secs| == 0 then [] else [secs[0].name] + Names(secs[1..])
  }

  /** A section name: one or more upper-case letters. */
  predicate IsLabel(name: string) {
    name != [] && forall i :: 0 <= i < |name| ==> IsAsciiUpper(name[i])
  }

  lemma LabelFacts(name: string)
    requires IsLabel(name)
    ensures ':' !in name && '*' !in name
    ensures name[0] !in Whitespace && name[|name| - 1] !in Whitespace
  {
  }

  /**
    A section the split and the heading detection both see as intended: a
    label for a name, and a body that holds no `**`, does not end with `*`
    (which would join the next separator) and does not end with `:` (which
    would make it a heading).
   */
  predicate WellFormed(sec: Section) {
    && IsLabel(sec.name)
    && !Contains(sec.body, "**")
    && (sec.body == [] || (sec.body[|sec.body| - 1] != '*' && sec.body[|sec.body| - 1] != ':'))
  }

  predicate AllWellFormed(secs: seq<Section>) {
    forall k :: 0 <= k < |secs| ==> WellFormed(secs[k])
  }

  lemma NoStarNoSeparator(a: string)
    requires '*' !in a
    ensures !Contains(a, "**")
  {
    forall i | 0 <= i <= |a|
      ensures !OccursAt(a, "**", i)
    {
      if i + 2 <= |a| {
        assert a[i..i + 2][0] == a[i];
      }
    }
  }

  /** Splitting on `**` right after a piece that holds no `**` and does not end with `*`. */
  lemma SplitAfterPiece(a: string, b: string)
    requires !Contains(a, "**") && (a == [] || a[|a| - 1] != '*')
    ensures SplitOn(a + ("**" + b), "**") == [a] + SplitOn(b, "**")
  {
    var s := a + "**" + b;
    assert a + ("**" + b) == s;
    forall j | 0 <= j < |a|
      ensures !OccursAt(s, "**", j)
    {
      if j + 2 <= |a| {
        assert s[j..j + 2] == a[j..j + 2];
        assert !OccursAt(a, "**", j);
      } else {
        assert s[j] == a[j];
      }
    }
    SplitOnFirst(a, "**", b);
  }

  lemma ConsTwo(a: string, b: string, rest: seq<string>)
    ensures [a, b] + rest == [a] + ([b] + rest)
  {
  }

  /** A well-formed section's name and colon come off the front of a split. */
  lemma SplitSection(sec: Section, rest: string)
    requires WellFormed(sec)
    ensures SplitOn(Open(sec, rest), "**") == [sec.name + ":"] + SplitOn(sec.body + rest, "**")
  {
    var head := sec.name + ":";
    LabelFacts(sec.name);
    assert '*' !in head;
    NoStarNoSeparator(head);
    SplitAfterPiece(head, sec.body + rest);
  }

  /** A body followed by more sections comes off the front of a split. */
  lemma SplitBody(body: string, rest: seq<Section>)
    requires !Contains(body, "**") && (body == [] || body[|body| - 1] != '*')
    requires |rest| >= 1
    ensures SplitOn(body + Render(rest), "**") == [body] + SplitOn(Open(rest[0], Render(rest[1..])), "**")
  {
    SplitAfterPiece(body, Open(rest[0], Render(rest[1..])));
  }

  lemma SplitRenderedLast(secs: seq<Section>)
    requires |secs| == 1 && WellFormed(secs[0])
    ensures SplitOn(Open(secs[0], Render(secs[1..])), "**") == Pieces(secs)
  {
    var sec := secs[0];
    SplitSection(sec, Render(secs[1..]));
    assert sec.body + Render(secs[1..]) == sec.body;
    SplitOnAbsent(sec.body, "**");
    assert Pieces(secs) == [sec.name + ":", sec.body];
  }

  lemma SplitRenderedStep(secs: seq<Section>)
    requires |secs| >= 2 && WellFormed(secs[0])
    requires SplitOn(Open(secs[1], Render(secs[2..])), "**") == Pieces(secs[1..])
    ensures SplitOn(Open(secs[0], Render(secs[1..])), "**") == Pieces(secs)
  {
    var sec := secs[0];
    SplitSection(sec, Render(secs[1..]));
    assert secs[1..][0] == secs[1] && secs[1..][1..] == secs[2..];
    SplitBody(sec.body, secs[1..]);
    var rest := Pieces(secs[1..]);
    assert Pieces(secs) == [sec.name + ":", sec.body] + rest;
    ConsTwo(sec.name + ":", sec.body, rest);
  }

  /** What follows the first `**` of a rendered report splits into the pieces. */
  lemma {:induction false} SplitRenderedTail(secs: seq<Section>)
    requires |secs| >= 1 && AllWellFormed(secs)
    ensures SplitOn(Open(secs[0], Render(secs[1..])), "**") == Pieces(secs)
  {
    assert WellFormed(secs[0]);
    if |secs| == 1 {
      SplitRenderedLast(secs);
    } else {
      SplitRenderedTail(secs[1..]);
      assert secs[1..][0] == secs[1] && secs[1..][1..] == secs[2..];
      SplitRenderedStep(secs);
    }
  }

  lemma SplitRendered(secs: seq<Section>)
    requires |secs| >= 1 && AllWellFormed(secs)
    ensures SplitOn(Render(secs), "**") == [""] + Pieces(secs)
  {
    SplitRenderedTail(secs);
    NoStarNoSeparator("");
    var x := Open(secs[0], Render(secs[1..]));
    SplitAfterPiece("", x);
    assert "" + ("**" + x) == Render(secs);
  }

  /** The texts of the headings among `bs`, in order. */
  function HeadingTexts(bs: seq<Block>): seq<string> {
    if |bs| == 0 then []
    else (if bs[0].Heading? then [bs[0].text] else []) + HeadingTexts(bs[1..])
  }

  lemma {:induction false} HeadingTextsAppend(a: seq<Block>, b: seq<Block>)
    ensures HeadingTexts(a + b) == HeadingTexts(a) + HeadingTexts(b)
  {
    if |a| > 0 {
      assert (a + b)[1..] == a[1..] + b;
      HeadingTextsAppend(a[1..], b);
    } else {
      assert a + b == b;
    }
  }

  lemma {:induction false} NoHeadingTexts(bs: seq<Block>)
    requires NoHeadings(bs)
    ensures HeadingTexts(bs) == []
  {
    if |bs| > 0 {
      NoHeadingTexts(bs[1..]);
    }
  }

  /** A piece `name:` becomes the level-2 heading `name` under the corrected marker. */
  lemma SectionHeading(name: string)
    requires name != [] && ':' !in name
    requires name[0] !in Whitespace && name[|name| - 1] !in Whitespace
    ensures SectionBlocks(name + ":", HeadingMarker) == [Heading(name, 2)]
  {
    var s := name + ":";
    assert EndsWith(s, HeadingMarker);
    forall j | 0 <= j < |name|
      ensures !OccursAt(name + ":" + "", ":", j)
    {
      assert (name + ":" + "")[j] == name[j];
    }
    SplitOnFirst(name, ":", "");
    assert s == name + ":" + "";
    ReplaceIsJoinOfSplit(s, ":", "");
    assert SplitOn(s, ":") == [name, ""];
    JoinCons(name, [""], "");
    StripUnchanged(name);
  }

  /** A piece that does not end with `:` contributes no heading. */
  lemma PlainSection(sec: string)
    requires !EndsWith(sec, HeadingMarker)
    ensures HeadingTexts(SectionBlocks(sec, HeadingMarker)) == []
  {
    if Strip(sec) != "" {
      LineBlocksNoHeadings(SplitOn(Strip(sec), "\n"));
      NoHeadingTexts(SectionBlocks(sec, HeadingMarker));
    }
  }

  lemma SectionsCons(sec: string, rest: seq<string>)
    ensures HeadingTexts(SectionsBlocks([sec] + rest, HeadingMarker))
         == HeadingTexts(SectionBlocks(sec, HeadingMarker)) + HeadingTexts(SectionsBlocks(rest, HeadingMarker))
  {
    assert ([sec] + rest)[1..] == rest;
    HeadingTextsAppend(SectionBlocks(sec, HeadingMarker), SectionsBlocks(rest, HeadingMarker));
  }

  /** A well-formed section's name piece is a heading and its body piece is not. */
  lemma WellFormedSectionBlocks(sec: Section)
    requires WellFormed(sec)
    ensures SectionBlocks(sec.name + ":", HeadingMarker) == [Heading(sec.name, 2)]
    ensures HeadingTexts(SectionBlocks(sec.body, HeadingMarker)) == []
  {
    LabelFacts(sec.name);
    SectionHeading(sec.name);
    assert !EndsWith(sec.body, HeadingMarker);
    PlainSection(sec.body);
  }

  lemma HeadingPiece(piece: string, name: string, rest: seq<string>)
    requires SectionBlocks(piece, HeadingMarker) == [Heading(name, 2)]
    ensures HeadingTexts(SectionsBlocks([piece] + rest, HeadingMarker))
         == [name] + HeadingTexts(SectionsBlocks(rest, HeadingMarker))
  {
    SectionsCons(piece, rest);
    assert HeadingTexts([Heading(name, 2)]) == [name];
  }

  lemma PlainPiece(piece: string, rest: seq<string>)
    requires HeadingTexts(SectionBlocks(piece, HeadingMarker)) == []
    ensures HeadingTexts(SectionsBlocks([piece] + rest, HeadingMarker))
         == HeadingTexts(SectionsBlocks(rest, HeadingMarker))
  {
    SectionsCons(piece, rest);
  }

  lemma NamePiece(sec: Section, rest: seq<string>)
    requires WellFormed(sec)
    ensures HeadingTexts(SectionsBlocks([sec.name + ":"] + rest, HeadingMarker))
         == [sec.name] + HeadingTexts(SectionsBlocks(rest, HeadingMarker))
  {
    WellFormedSectionBlocks(sec);
    HeadingPiece(sec.name + ":", sec.name, rest);
  }

  lemma BodyPiece(sec: Section, rest: seq<string>)
    requires WellFormed(sec)
    ensures HeadingTexts(SectionsBlocks([sec.body] + rest, HeadingMarker))
         == HeadingTexts(SectionsBlocks(rest, HeadingMarker))
  {
    WellFormedSectionBlocks(sec);
    PlainPiece(sec.body, rest);
  }

  lemma PiecesStep(sec: Section, rest: seq<string>)
    requires WellFormed(sec)
    ensures HeadingTexts(SectionsBlocks([sec.name + ":", sec.body] + rest, HeadingMarker))
         == [sec.name] + HeadingTexts(SectionsBlocks(rest, HeadingMarker))
  {
    ConsTwo(sec.name + ":", sec.body, rest);
    NamePiece(sec, [sec.body] + rest);
    BodyPiece(sec, rest);
  }

  /** Under the corrected marker, the pieces of well-formed sections yield exactly their names as headings. */
  lemma {:induction false} PiecesHeadings(secs: seq<Section>)
    requires AllWellFormed(secs)
    ensures HeadingTexts(SectionsBlocks(Pieces(secs), HeadingMarker)) == Names(secs)
  {
    if |secs| > 0 {
      assert WellFormed(secs[0]);
      PiecesHeadings(secs[1..]);
      PiecesStep(secs[0], Pieces(secs[1..]));
    }
  }

  lemma MarkerSpelled()
    ensures "**TECHNIQUE:**" == "**" + ("TECHNIQUE" + ":") + "**"
  {
  }

  lemma Regroup(p: string, q: string, x: string)
    ensures p + (q + (p + x)) == (p + q + p) + x
  {
  }

  lemma ContainsPrefix(m: string, x: string)
    ensures Contains(m + x, m)
  {
    assert (m + x)[..|m|] == m;
    assert OccursAt(m + x, m, 0);
  }

  /** A rendered report whose first section is TECHNIQUE takes the sectioned branch of the export. */
  lemma RenderedIsSectioned(secs: seq<Section>)
    requires |secs| >= 1 && secs[0].name == "TECHNIQUE"
    ensures Contains(Render(secs), "**TECHNIQUE:**")
  {
    var x := secs[0].body + Render(secs[1..]);
    MarkerSpelled();
    Regroup("**", "TECHNIQUE" + ":", x);
    ContainsPrefix("**TECHNIQUE:**", x);
  }

  /**
    With the corrected marker, a report rendered from well-formed sections
    that opens with TECHNIQUE exports exactly its section names as
    sub-headings, in order.
   */
  lemma RenderedHeadings(secs: seq<Section>)
    requires |secs| >= 1 && secs[0].name == "TECHNIQUE" && AllWellFormed(secs)
    ensures HeadingTexts(ReportBlocks(Render(secs), HeadingMarker)) == Names(secs)
  {
    RenderedIsSectioned(secs);
    SplitRendered(secs);
    PiecesHeadings(secs);
    PlainSection("");
    SectionsCons("", Pieces(secs));
  }

  /** Text between a space and a newline holds `**` only if the text does. */
  lemma PaddedNoSeparator(findings: string)
    requires !Contains(findings, "**")
    ensures !Contains(" " + findings + "\n", "**")
  {
    var body := " " + findings + "\n";
    forall i | 0 <= i <= |body|
      ensures !OccursAt(body, "**", i)
    {
      if 1 <= i && i + 2 <= |findings| + 1 {
        assert body[i..i + 2] == findings[i - 1..i + 1];
        assert !OccursAt(findings, "**", i - 1);
      } else if i + 2 <= |body| {
        assert body[i..i + 2][0] == body[i];
        assert body[i..i + 2][1] == body[i + 1];
      }
    }
  }

  /** The three generated sections are well formed whenever the copied draft holds no `**`. */
  lemma GeneratedSectionsWellFormed(findings: string)
    requires !Contains(findings, "**")
    ensures AllWellFormed(GeneratedSections(findings))
  {
    PaddedNoSeparator(findings);
    assert '*' !in TechniqueText;
    NoStarNoSeparator(TechniqueText);
    assert '*' !in ImpressionText;
    NoStarNoSeparator(ImpressionText);
    var secs := GeneratedSections(findings);
    assert WellFormed(secs[0]);
    assert WellFormed(secs[1]);
    assert WellFormed(secs[2]);
  }

  /**
    Splitting a generated report on `**` gives back the start of the draft
    verbatim, between the space after the FINDINGS label and the newline.
   */
  lemma GeneratedFindingsVerbatim(draft: string)
    requires !Contains(Take(draft, FindingsLength), "**")
    ensures var parts := SplitOn(GeneratedReport(draft), "**");
      |parts| == 7 && parts[4] == " " + Take(draft, FindingsLength) + "\n"
  {
    var secs := GeneratedSections(Take(draft, FindingsLength));
    GeneratedSectionsWellFormed(Take(draft, FindingsLength));
    SplitRendered(secs);
    assert Pieces(secs)[3] == secs[1].body;
  }

  lemma GeneratedNames(findings: string)
    ensures Names(GeneratedSections(findings)) == ["TECHNIQUE", "FINDINGS", "IMPRESSION"]
  {
  }

  /**
    With the corrected marker, the exported body of a generated report has
    exactly the headings TECHNIQUE, FINDINGS and IMPRESSION, in that order,
    as long as the copied part of the draft holds no `**`.
   */
  lemma GeneratedReportHeadings(draft: string)
    requires !Contains(Take(draft, FindingsLength), "**")
    ensures HeadingTexts(ReportBlocks(GeneratedReport(draft), HeadingMarker)) == ["TECHNIQUE", "FINDINGS", "IMPRESSION"]
  {
    var secs := GeneratedSections(Take(draft, FindingsLength));
    GeneratedSectionsWellFormed(Take(draft, FindingsLength));
    RenderedHeadings(secs);
    GeneratedNames(Take(draft, FindingsLength));
  }

  /** With the marker as written, the same report exports no sub-heading at all. */
  lemma GeneratedReportAsWrittenHasNoHeadings(draft: string)
    ensures HeadingTexts(ReportBlocks(GeneratedReport(draft), AsWrittenMarker)) == []
  {
    AsWrittenBodyHasNoHeadings(GeneratedReport(draft));
    NoHeadingTexts(ReportBlocks(GeneratedReport(draft), AsWrittenMarker));
  }
}

=== FILE: history.dfy ===
/**
  The report history: a list of saved reports, newest first. Entries may
  come from a JSON file, so every field may be missing.
 */
module History {
  import opened Common
  import opened Dicts

  datatype Entry = Entry(
    name: Option<string>,
    date: Option<string>,
    timestamp: Option<string>,
    patientInfo: Option<Dict<string>>,
    draft: Option<string>,
    aiReport: Option<string>,
    reviewerNotes: Option<string>,
    finalized: Option<bool>,
    createdBy: Option<string>)

  /** How many history entries the page lists. */
  const PageSize: nat := 10

  /** `history.insert(0, entry)`. */
  function Add(h: seq<Entry>, e: Entry): (r: seq<Entry>)
    ensures |r| == |h| + 1 && r[0] == e && r[1..] == h
  {
    [e] + h
  }

  function FirstIndex(h: seq<Entry>, e: Entry): (k: nat)
    requires e in h
    ensures k < |h| && h[k] == e && e !in h[..k]
  {
    if h[0] == e then 0 else FirstIndex(h[1..], e) + 1
  }

  /**
    `history.remove(e)`: the first equal entry is cut out and the others
    keep their order, or `ValueError` when there is none.
   */
  function RemoveFirst(h: seq<Entry>, e: Entry): (r: Result<seq<Entry>>)
    ensures r.Ok? <==> e in h
    ensures r.Err? ==> r.error == ValueError
    ensures r.Ok? ==> exists k :: 0 <= k < |h| && h[k] == e && e !in h[..k] && r.value == h[..k] + h[k + 1..]
    ensures r.Ok? ==> |r.value| == |h| - 1 && multiset(r.value) == multiset(h) - multiset{e}
  {
    if e !in h then Err(ValueError)
    else
      var k := FirstIndex(h, e);
      assert h == h[..k] + [e] + h[k + 1..];
      Ok(h[..k] + h[k + 1..])
  }

  /** Entries whose `created_by` is `user`, in history order. */
  function OwnedBy(h: seq<Entry>, user: string): (r: seq<Entry>)
    ensures |r| <= |h|
  {
    if |h| == 0 then []
    else (if h[0].createdBy == Some(user) then [h[0]] else []) + OwnedBy(h[1..], user)
  }

  /** Filtering a concatenation filters each part. */
  lemma {:induction false} OwnedByAppend(a: seq<Entry>, b: seq<Entry>, user: string)
    ensures OwnedBy(a + b, user) == OwnedBy(a, user) + OwnedBy(b, user)
  {
    if |a| > 0 {
      OwnedByAppend(a[1..], b, user);
      assert (a + b)[1..] == a[1..] + b;
    } else {
      assert a + b == b;
    }
  }

  /** `x` is an entry of `user` in `h` with exactly `i` of the user's entries before it. */
  ghost predicate NthOwn(h: seq<Entry>, user: string, i: nat, x: Entry) {
    exists k :: 0 <= k < |h| && x == h[k] && h[k].createdBy == Some(user) && |OwnedBy(h[..k], user)| == i
  }

  /**
    The `i`-th of a user's entries is the entry of the history that has
    exactly `i` of that user's entries before it.
   */
  lemma {:induction false} OwnedByIndex(h: seq<Entry>, user: string, i: nat)
    requires i < |OwnedBy(h, user)|
    ensures NthOwn(h, user, i, OwnedBy(h, user)[i])
  {
    var head := if h[0].createdBy == Some(user) then [h[0]] else [];
    if i < |head| {
      assert OwnedBy(h[..0], user) == [];
    } else {
      OwnedByIndex(h[1..], user, i - |head|);
      var k :| 0 <= k < |h[1..]| && OwnedBy(h[1..], user)[i - |head|] == h[1..][k]
               && h[1..][k].createdBy == Some(user) && |OwnedBy(h[1..][..k], user)| == i - |head|;
      assert h[..k + 1] == [h[0]] + h[1..][..k];
      OwnedByAppend([h[0]], h[1..][..k], user);
      assert OwnedBy([h[0]], user) == head;
    }
  }

  lemma {:induction false} OwnedByMembership(h: seq<Entry>, user: string)
    ensures forall e :: e in OwnedBy(h, user) <==> e in h && e.createdBy == Some(user)
  {
    if |h| > 0 {
      OwnedByMembership(h[1..], user);
      assert forall e :: e in h <==> e == h[0] || e in h[1..];
    }
  }

  /** The first `PageSize` entries. */
  function FirstPage(s: seq<Entry>): (r: seq<Entry>)
    ensures |r| == if |s| <= PageSize then |s| else PageSize
    ensures r <= s
  {
    if |s| <= PageSize then s else s[..PageSize]
  }

  /** What the history section lists: all entries for an administrator, the user's own otherwise; ten at most. */
  function Visible(h: seq<Entry>, user: string, isAdmin: bool): seq<Entry> {
    FirstPage(if isAdmin then h else OwnedBy(h, user))
  }

  /**
    A user who is not an administrator sees only their own entries: the
    first ten of them (all of them when they have ten or fewer), in history
    order, so that the `i`-th listed is the one with `i` of the user's
    entries before it.
   */
  lemma VisibleToUser(h: seq<Entry>, user: string)
    ensures var v := Visible(h, user, false);
      |v| == if |OwnedBy(h, user)| <= PageSize then |OwnedBy(h, user)| else PageSize
    ensures var v := Visible(h, user, false);
      forall i :: 0 <= i < |v| ==> NthOwn(h, user, i, v[i])
    ensures forall e :: e in Visible(h, user, false) ==> e in h && e.createdBy == Some(user)
    ensures |OwnedBy(h, user)| <= PageSize ==>
      forall e :: e in h && e.createdBy == Some(user) ==> e in Visible(h, user, false)
  {
    OwnedByMembership(h, user);
    var v := Visible(h, user, false);
    forall i | 0 <= i < |v|
      ensures NthOwn(h, user, i, v[i])
    {
      assert v[i] == OwnedBy(h, user)[i];
      OwnedByIndex(h, user, i);
    }
    forall e | e in v
      ensures e in OwnedBy(h, user)
    {
      var i :| 0 <= i < |v| && v[i] == e;
      assert OwnedBy(h, user)[i] == e;
    }
  }

  /** An administrator sees the ten newest entries, whoever made them. */
  lemma VisibleToAdmin(h: seq<Entry>, user: string)
    ensures Visible(h, user, true) == if |h| <= PageSize then h else h[..PageSize]
  {
  }

  /** A report just added by a user heads that user's page. */
  lemma AddedEntryComesFirst(h: seq<Entry>, e: Entry, user: string, isAdmin: bool)
    requires e.createdBy == Some(user)
    ensures Visible(Add(h, e), user, isAdmin)[0] == e
  {
    var h' := Add(h, e);
    assert h'[0] == e && h'[1..] == h;
    assert OwnedBy(h', user) == [e] + OwnedBy(h, user);
  }

  /** "Clear All History" is offered to administrators only. */
  function Clear(h: seq<Entry>, isAdmin: bool): seq<Entry>
  {
    if isAdmin then [] else h
  }
}

=== FILE: library.dfy ===
/**
  The template library of the sidebar: saved templates by name, and category
  lists of template names that the browser offers. Saving stores the draft
  under its name and appends the name to the chosen category; deleting drops
  the template and its name from the categories.
 */
module Library {
  import opened Common
  import opened Dicts

  datatype Library = Library(templates: Dict<string>, categories: Dict<seq<string>>)

  /** The category lists a session starts with, in display order. */
  const InitialCategories: Dict<seq<string>> := [
    Item("Brain", []), Item("Spine", []), Item("Chest", []),
    Item("Abdomen", []), Item("MSK", []), Item("Other", [])
  ]

  /** The browser's choice that lists every saved template. */
  const All: string := "All"

  /** A fresh session: the templates read from storage and empty category lists. */
  function Initial(saved: Dict<string>): Library {
    Library(saved, InitialCategories)
  }

  /** Every name listed under a category is a saved template. */
  ghost predicate Consistent(lib: Library) {
    && Valid(lib.templates)
    && Valid(lib.categories)
    && forall i, n :: 0 <= i < |lib.categories| && n in lib.categories[i].value ==> HasKey(lib.templates, n)
  }

  lemma InitialIsConsistent(saved: Dict<string>)
    requires Valid(saved)
    ensures Consistent(Initial(saved))
  {
  }

  /**
    "Save as Template": ignored unless both the name and the draft are
    non-empty; otherwise the draft is stored under the name (replacing any
    earlier template of that name) and the name is appended to the list of
    the chosen category, even when it is already there. A category that is
    not in the library raises `KeyError`.
   */
  function Save(lib: Library, name: string, category: string, draft: string): (r: Result<Library>)
    ensures r.Err? <==> name != "" && draft != "" && !HasKey(lib.categories, category)
    ensures r.Err? ==> r.error == KeyError(category)
  {
    if name == "" || draft == "" then Ok(lib)
    else match Get(lib.categories, category)
      case None => Err(KeyError(category))
      case Some(listed) =>
        Ok(Library(Put(lib.templates, name, draft), Put(lib.categories, category, listed + [name])))
  }

  /**
    The template list the browser shows for a selection: every saved
    template, in store order, for "All"; otherwise `template_categories[c]`,
    a `KeyError` for a category the library does not have.
   */
  function List(lib: Library, selected: string): (r: Result<seq<string>>)
    ensures selected == All ==> r.Ok? && |r.value| == |lib.templates|
                                && forall i :: 0 <= i < |r.value| ==> r.value[i] == lib.templates[i].key
    ensures selected != All ==> (r.Ok? <==> HasKey(lib.categories, selected))
    ensures selected != All && r.Ok? ==> Get(lib.categories, selected) == Some(r.value)
    ensures r.Err? ==> r.error == KeyError(selected)
  {
    if selected == All then Ok(Keys(lib.templates)) else Index(lib.categories, selected)
  }

  /** In a consistent library every name the browser lists loads. */
  lemma ListedNamesLoad(lib: Library, selected: string, n: string)
    requires Consistent(lib) && List(lib, selected).Ok? && n in List(lib, selected).value
    ensures Load(lib, n).Ok?
  {
    if selected == All {
      KeysMembership(lib.templates, n);
    } else {
      var i :| 0 <= i < |lib.categories| && lib.categories[i] == Item(selected, List(lib, selected).value);
      assert n in lib.categories[i].value;
    }
  }

  /** "Load": `saved_templates[name]`. */
  function Load(lib: Library, name: string): (r: Result<string>)
    ensures r.Ok? <==> HasKey(lib.templates, name)
    ensures r.Ok? ==> Get(lib.templates, name) == Some(r.value)
    ensures r.Err? ==> r.error == KeyError(name)
  {
    Index(lib.templates, name)
  }

  // ---------------------------------------------------------------------------
  // Deleting, as written and corrected
  // ---------------------------------------------------------------------------

  /**
    `cat.remove(name)` guarded by `name in cat`: a list without the name is
    left alone, otherwise only its first occurrence is cut out and the other
    names keep their order.
   */
  function RemoveFirstName(names: seq<string>, name: string): (r: seq<string>)
    ensures name !in names ==> r == names
    ensures name in names ==> exists k :: 0 <= k < |names| && names[k] == name && name !in names[..k]
                                          && r == names[..k] + names[k + 1..]
  {
    if |names| == 0 then []
    else if names[0] == name then
      assert names[..0] + names[1..] == names[1..];
      names[1..]
    else
      var rest := RemoveFirstName(names[1..], name);
      assert [names[0]] + names[1..] == names;
      assert name in names ==> exists k :: 0 <= k < |names| && names[k] == name && name !in names[..k]
                                           && [names[0]] + rest == names[..k] + names[k + 1..] by {
        if name in names {
          assert name in names[1..];
          var k :| 0 <= k < |names[1..]| && names[1..][k] == name && name !in names[1..][..k]
                   && rest == names[1..][..k] + names[1..][k + 1..];
          ConsCutsFirst(names[0], names[1..], name, rest, k);
        }
      }
      [names[0]] + rest
  }

  /** Putting a different name in front of a list moves its first occurrence of `name` one place on. */
  lemma ConsCutsFirst(x: string, tail: seq<string>, name: string, rest: seq<string>, k: nat)
    requires x != name
    requires k < |tail| && tail[k] == name && name !in tail[..k] && rest == tail[..k] + tail[k + 1..]
    ensures var names := [x] + tail;
      names[k + 1] == name && name !in names[..k + 1] && [x] + rest == names[..k + 1] + names[k + 2..]
  {
    var names := [x] + tail;
    assert names[..k + 1] == [x] + tail[..k];
    assert names[k + 2..] == tail[k + 1..];
  }

  /** Every occurrence of `name` goes. */
  function RemoveAllNames(names: seq<string>, name: string): (r: seq<string>)
    ensures forall n :: n in r <==> n in names && n != name
  {
    if |names| == 0 then []
    else (if names[0] == name then [] else [names[0]]) + RemoveAllNames(names[1..], name)
  }

  function RemoveFirstEverywhere(cats: Dict<seq<string>>, name: string): (r: Dict<seq<string>>)
    ensures |r| == |cats|
    ensures forall i :: 0 <= i < |cats| ==> r[i] == Item(cats[i].key, RemoveFirstName(cats[i].value, name))
  {
    if |cats| == 0 then []
    else [Item(cats[0].key, RemoveFirstName(cats[0].value, name))] + RemoveFirstEverywhere(cats[1..], name)
  }

  function RemoveAllEverywhere(cats: Dict<seq<string>>, name: string): (r: Dict<seq<string>>)
    ensures |r| == |cats|
    ensures forall i :: 0 <= i < |cats| ==> r[i] == Item(cats[i].key, RemoveAllNames(cats[i].value, name))
  {
    if |cats| == 0 then []
    else [Item(cats[0].key, RemoveAllNames(cats[0].value, name))] + RemoveAllEverywhere(cats[1..], name)
  }

  /**
    "Delete" as the source writes it: `del saved_templates[name]` (a
    `KeyError` when there is no such template), then the first occurrence of
    the name is removed from each category list.
   */
  function DeleteAsWritten(lib: Library, name: string): Result<Library> {
    if !HasKey(lib.templates, name) then Err(KeyError(name))
    else Ok(Library(Remove(lib.templates, name), RemoveFirstEverywhere(lib.categories, name)))
  }

  /** "Delete" with the name removed from the category lists wherever it occurs. */
  function Delete(lib: Library, name: string): Result<Library> {
    if !HasKey(lib.templates, name) then Err(KeyError(name))
    else Ok(Library(Remove(lib.templates, name), RemoveAllEverywhere(lib.categories, name)))
  }

  // ---------------------------------------------------------------------------
  // Properties
  // ---------------------------------------------------------------------------

  /** After a save the template loads back, and every other template is unchanged. */
  lemma SaveThenLoad(lib: Library, name: string, category: string, draft: string, other: string)
    requires HasKey(lib.categories, category) && name != "" && draft != ""
    ensures Load(Save(lib, name, category, draft).value, name) == Ok(draft)
    ensures other != name ==> Load(Save(lib, name, category, draft).value, other) == Load(lib, other)
  {
    GetPut(lib.templates, name, draft, name);
    GetPut(lib.templates, name, draft, other);
  }

  /** A save with an empty name or an empty draft changes nothing. */
  lemma SaveNeedsNameAndDraft(lib: Library, name: string, category: string, draft: string)
    requires name == "" || draft == ""
    ensures Save(lib, name, category, draft) == Ok(lib)
  {
  }

  /**
    After a save the chosen category's list is the old list with the name
    appended, and every other category lists what it listed before.
   */
  lemma SaveListsName(lib: Library, name: string, category: string, draft: string)
    requires HasKey(lib.categories, category) && name != "" && draft != ""
    ensures Get(Save(lib, name, category, draft).value.categories, category)
         == Some(Get(lib.categories, category).value + [name])
    ensures forall c :: c != category ==> Get(Save(lib, name, category, draft).value.categories, c) == Get(lib.categories, c)
  {
    var listed := Get(lib.categories, category).value;
    GetPut(lib.categories, category, listed + [name], category);
    forall c | c != category
      ensures Get(Save(lib, name, category, draft).value.categories, c) == Get(lib.categories, c)
    {
      GetPut(lib.categories, category, listed + [name], c);
    }
  }

  lemma SaveKeepsConsistent(lib: Library, name: string, category: string, draft: string)
    requires Consistent(lib)
    ensures Save(lib, name, category, draft).Ok? ==> Consistent(Save(lib, name, category, draft).value)
  {
    if name != "" && draft != "" && HasKey(lib.categories, category) {
      var lib' := Save(lib, name, category, draft).value;
      var listed := Get(lib.categories, category).value;
      PutValid(lib.templates, name, draft);
      PutValid(lib.categories, category, listed + [name]);
      forall i, n | 0 <= i < |lib'.categories| && n in lib'.categories[i].value
        ensures HasKey(lib'.templates, n)
      {
        var c := lib'.categories[i].key;
        GetPut(lib.categories, category, listed + [name], c);
        GetFindsItem(lib'.categories, i);
        GetPut(lib.templates, name, draft, n);
        if n != name {
          if c == category {
            var j :| 0 <= j < |lib.categories| && lib.categories[j] == Item(category, listed);
          } else {
            var j :| 0 <= j < |lib.categories| && lib.categories[j] == Item(c, lib'.categories[i].value);
          }
        }
      }
    }
  }

  /** Deleting a template removes it, leaves every other template as it was, and keeps the library consistent. */
  lemma DeleteKeepsConsistent(lib: Library, name: string, other: string)
    requires Consistent(lib) && HasKey(lib.templates, name)
    ensures Delete(lib, name).Ok?
    ensures Load(Delete(lib, name).value, name) == Err(KeyError(name))
    ensures other != name ==> Load(Delete(lib, name).value, other) == Load(lib, other)
    ensures Consistent(Delete(lib, name).value)
  {
    var lib' := Delete(lib, name).value;
    GetRemove(lib.templates, name, name);
    GetRemove(lib.templates, name, other);
    RemoveValid(lib.templates, name);
    assert Keys(lib'.categories) == Keys(lib.categories);
    forall i, n | 0 <= i < |lib'.categories| && n in lib'.categories[i].value
      ensures HasKey(lib'.templates, n)
    {
      assert n in lib.categories[i].value && n != name;
      GetRemove(lib.templates, name, n);
    }
  }

  /** Removing the first occurrence in every list, looked up by category. */
  lemma {:induction false} GetRemoveFirstEverywhere(cats: Dict<seq<string>>, name: string, c: string)
    ensures Get(RemoveFirstEverywhere(cats, name), c)
         == match Get(cats, c) case None => None case Some(l) => Some(RemoveFirstName(l, name))
  {
    if |cats| > 0 {
      GetRemoveFirstEverywhere(cats[1..], name, c);
      var r := RemoveFirstEverywhere(cats, name);
      assert r[1..] == RemoveFirstEverywhere(cats[1..], name);
    }
  }

  /**
    The source's delete: it fails with `KeyError` exactly when there is no
    such template; otherwise the template is gone, every other template loads
    as before, and every category's list loses the first occurrence of the
    name and nothing else.
   */
  lemma DeleteAsWrittenRemovesFirst(lib: Library, name: string, other: string, c: string)
    ensures DeleteAsWritten(lib, name).Ok? <==> HasKey(lib.templates, name)
    ensures DeleteAsWritten(lib, name).Err? ==> DeleteAsWritten(lib, name).error == KeyError(name)
    ensures DeleteAsWritten(lib, name).Ok? ==> Load(DeleteAsWritten(lib, name).value, name) == Err(KeyError(name))
    ensures DeleteAsWritten(lib, name).Ok? && other != name ==>
      Load(DeleteAsWritten(lib, name).value, other) == Load(lib, other)
    ensures DeleteAsWritten(lib, name).Ok? ==>
      Get(DeleteAsWritten(lib, name).value.categories, c)
        == match Get(lib.categories, c) case None => None case Some(l) => Some(RemoveFirstName(l, name))
  {
    GetRemove(lib.templates, name, name);
    GetRemove(lib.templates, name, other);
    GetRemoveFirstEverywhere(lib.categories, name, c);
  }

  /**
    The source's delete keeps the library consistent when no category lists
    the deleted name twice: the stale name needs a repeated save.
   */
  lemma DeleteAsWrittenConsistentWithoutRepeats(lib: Library, name: string)
    requires Consistent(lib) && HasKey(lib.templates, name)
    requires forall i :: 0 <= i < |lib.categories| ==> Distinct(lib.categories[i].value)
    ensures DeleteAsWritten(lib, name).Ok?
    ensures Consistent(DeleteAsWritten(lib, name).value)
  {
    var lib' := DeleteAsWritten(lib, name).value;
    RemoveValid(lib.templates, name);
    assert Keys(lib'.categories) == Keys(lib.categories);
    forall i, n | 0 <= i < |lib'.categories| && n in lib'.categories[i].value
      ensures HasKey(lib'.templates, n)
    {
      var l := lib.categories[i].value;
      if n == name {
        NoSecondOccurrence(l, name);
        assert false;
      }
      assert n in l;
      GetRemove(lib.templates, name, n);
    }
  }

  /** In a list without repeats, removing the first occurrence of a name removes it altogether. */
  lemma NoSecondOccurrence(names: seq<string>, name: string)
    requires Distinct(names)
    ensures name !in RemoveFirstName(names, name)
  {
    if name in names {
      var k :| 0 <= k < |names| && names[k] == name && name !in names[..k]
               && RemoveFirstName(names, name) == names[..k] + names[k + 1..];
      forall j | k + 1 <= j < |names|
        ensures names[j] != name
      {
        assert names[j] != names[k];
      }
      assert name !in names[k + 1..];
      assert name !in names[..k] + names[k + 1..];
    }
  }

  /** Saving "A" with draft "x" into Brain twice, starting from an empty library. */
  function SavedTwice(): (r: Result<Library>) {
    match Save(Initial([]), "A", "Brain", "x")
    case Err(e) => Err(e)
    case Ok(lib) => Save(lib, "A", "Brain", "x")
  }

  lemma SavedTwiceListsNameTwice()
    ensures SavedTwice() == Ok(Library([Item("A", "x")], [Item("Brain", ["A", "A"])] + InitialCategories[1..]))
  {
    var cats := InitialCategories;
    assert Get(cats, "Brain") == Some([]);
    assert [] + ["A"] == ["A"] && ["A"] + ["A"] == ["A", "A"];
    assert Put([], "A", "x") == [Item("A", "x")];
    assert Put(cats, "Brain", ["A"]) == [Item("Brain", ["A"])] + cats[1..];
    var lib1 := Library([Item("A", "x")], [Item("Brain", ["A"])] + cats[1..]);
    assert Save(Initial([]), "A", "Brain", "x") == Ok(lib1);
    assert Get(lib1.categories, "Brain") == Some(["A"]);
    assert Put(lib1.categories, "Brain", ["A", "A"]) == [Item("Brain", ["A", "A"])] + cats[1..];
    assert Put(lib1.templates, "A", "x") == [Item("A", "x")];
  }

  /** What the source's delete leaves after `SavedTwice`: no template, yet Brain still lists "A". */
  lemma SavedTwiceThenDeleteAsWritten()
    ensures SavedTwice().Ok?
    ensures DeleteAsWritten(SavedTwice().value, "A") == Ok(Library([], [Item("Brain", ["A"])] + InitialCategories[1..]))
  {
    SavedTwiceListsNameTwice();
    var rest := InitialCategories[1..];
    var templates := [Item("A", "x")];
    assert HasKey(templates, "A") by { assert templates[0].key == "A"; }
    assert Remove(templates, "A") == [] by { assert templates[1..] == []; }
    assert forall i :: 0 <= i < |rest| ==> rest[i].value == [];
    RemoveFirstEverywhereHead(Item("Brain", ["A", "A"]), rest, "A");
    assert RemoveFirstName(["A", "A"], "A") == ["A"];
  }

  /** When only the first category can list `name`, the source's delete touches only that one. */
  lemma RemoveFirstEverywhereHead(c: Item<seq<string>>, rest: Dict<seq<string>>, name: string)
    requires forall i :: 0 <= i < |rest| ==> rest[i].value == []
    ensures RemoveFirstEverywhere([c] + rest, name) == [Item(c.key, RemoveFirstName(c.value, name))] + rest
  {
    var r := RemoveFirstEverywhere([c] + rest, name);
    assert forall i :: 0 <= i < |rest| ==> r[i + 1] == rest[i];
  }

  /**
    After saving "A" twice into Brain and deleting it with the source's
    delete, the template is gone but Brain still lists "A": loading it and
    deleting it again both fail with a `KeyError`.
   */
  lemma DeleteAsWrittenLeavesStaleName()
    ensures SavedTwice().Ok? && DeleteAsWritten(SavedTwice().value, "A").Ok?
    ensures var after := DeleteAsWritten(SavedTwice().value, "A").value;
      && List(after, "Brain") == Ok(["A"])
      && Load(after, "A") == Err(KeyError("A"))
      && DeleteAsWritten(after, "A") == Err(KeyError("A"))
      && !Consistent(after)
  {
    SavedTwiceThenDeleteAsWritten();
    var after := Library([], [Item("Brain", ["A"])] + InitialCategories[1..]);
    assert Get(after.categories, "Brain") == Some(["A"]);
    assert !HasKey(after.templates, "A");
    assert "A" in after.categories[0].value;
  }

  /** With the corrected delete the same steps leave Brain empty. */
  lemma DeleteClearsRepeatedName()
    ensures SavedTwice().Ok? && Delete(SavedTwice().value, "A").Ok?
    ensures List(Delete(SavedTwice().value, "A").value, "Brain") == Ok([])
  {
    SavedTwiceListsNameTwice();
    var lib := SavedTwice().value;
    assert lib.templates[0].key == "A";
    var after := Delete(lib, "A").value;
    assert after.categories[0] == Item("Brain", []);
  }
}

=== FILE: normal.dfy ===
/**
  `NORMAL_VALUES`, `get_normal_values` and the text the "Insert Normal
  Ranges" button builds from them.
 */
module NormalValues {
  import opened Common
  import opened Dicts

  /** Reference measurements per body region, in declaration order. */
  const NormalValues: Dict<Dict<string>> := [
    Item("Brain", [
      Item("Lateral ventricles (frontal horn)", "<10 mm"),
      Item("Third ventricle", "<6 mm"),
      Item("Fourth ventricle", "<12 mm"),
      Item("Sulcal width", "<3 mm"),
      Item("Pineal gland", "<10 mm"),
      Item("Pituitary height", "≤8 mm (♀), ≤10 mm (♂)")
    ]),
    Item("Spine", [
      Item("Spinal canal AP diameter (cervical)", "≥12 mm"),
      Item("Spinal canal AP diameter (lumbar)", "≥15 mm"),
      Item("Thecal sac (lumbar)", "≥12 mm"),
      Item("Cord compression", "None")
    ]),
    Item("Chest", [
      Item("Aortic diameter (ascending)", "<40 mm"),
      Item("Aortic diameter (descending)", "<30 mm"),
      Item("PA diameter", "<29 mm"),
      Item("Cardiothoracic ratio", "<0.5"),
      Item("Lymph node (short axis)", "<10 mm")
    ])
  ]

  /** `NORMAL_VALUES.get(category, {})`. */
  function GetNormalValues(category: string): (r: Dict<string>)
    ensures !HasKey(NormalValues, category) ==> r == []
    ensures HasKey(NormalValues, category) ==> exists i :: 0 <= i < |NormalValues| && NormalValues[i] == Item(category, r)
  {
    Get(NormalValues, category).GetOr([])
  }

  /** The `- measurement: range` line of one entry. */
  function RangeLine(entry: Item<string>): string {
    "- " + entry.key + ": " + entry.value + "\n"
  }

  /** One line per entry, in list order. */
  function RangeLines(values: Dict<string>): string {
    if |values| == 0 then "" else RangeLine(values[0]) + RangeLines(values[1..])
  }

  /** The text inserted for `category`: a heading line, then one line per measurement. */
  function NormalRangesText(category: string): string {
    "Normal ranges for " + category + ":\n" + RangeLines(GetNormalValues(category))
  }

  /** Every measurement of the list has its own line in the text. */
  lemma {:induction false} RangeLinesHoldEachEntry(values: Dict<string>, i: nat)
    requires i < |values|
    ensures exists pre, post :: RangeLines(values) == pre + RangeLine(values[i]) + post
  {
    if i == 0 {
      assert RangeLines(values) == "" + RangeLine(values[0]) + RangeLines(values[1..]);
    } else {
      RangeLinesHoldEachEntry(values[1..], i - 1);
      var pre, post :| RangeLines(values[1..]) == pre + RangeLine(values[1..][i - 1]) + post;
      assert values[1..][i - 1] == values[i];
      assert RangeLines(values) == (RangeLine(values[0]) + pre) + RangeLine(values[i]) + post;
    }
  }

  /** A category without reference values yields the heading line alone. */
  lemma UnknownCategoryHasHeadingOnly(category: string)
    requires !HasKey(NormalValues, category)
    ensures NormalRangesText(category) == "Normal ranges for " + category + ":\n"
  {
  }
}

=== FILE: recommender.dfy ===
/**
  `TemplateRecommender`: an inverted index from words to the names of the
  templates whose content holds them, and `recommend`, which scores every
  template by the text's words it shares plus a bonus of two for each text
  word inside its lower-cased name, and returns the best `limit` names.
 */
module Recommender {
  import opened Common
  import opened Text
  import opened Dicts
  import opened Tokens

  // ---------------------------------------------------------------------------
  // The keyword index
  // ---------------------------------------------------------------------------

  /** The names of the templates whose content holds word `w`, in template order. */
  function Postings(d: Dict<string>, w: string): seq<string>
  {
    if |d| == 0 then []
    else
      var last := d[|d| - 1];
      Postings(d[..|d| - 1], w) + (if w in Words(last.value) then [last.key] else [])
  }

  lemma {:induction false} PostingsMembership(d: Dict<string>, w: string, n: string)
    ensures n in Postings(d, w) <==> exists i :: 0 <= i < |d| && d[i].key == n && w in Words(d[i].value)
  {
    if |d| > 0 {
      var init := d[..|d| - 1];
      PostingsMembership(init, w, n);
      if n in Postings(init, w) {
        var i :| 0 <= i < |init| && init[i].key == n && w in Words(init[i].value);
        assert d[i] == init[i];
      }
      if exists i :: 0 <= i < |d| && d[i].key == n && w in Words(d[i].value) {
        var i :| 0 <= i < |d| && d[i].key == n && w in Words(d[i].value);
        if i < |init| {
          assert init[i] == d[i];
        }
      }
    }
  }

  /** With distinct keys a posting list names every template at most once. */
  lemma {:induction false} PostingsDistinct(d: Dict<string>, w: string)
    requires Valid(d)
    ensures Distinct(Postings(d, w))
  {
    if |d| > 0 {
      var init := d[..|d| - 1];
      var last := d[|d| - 1];
      PostingsDistinct(init, w);
      PostingsMembership(init, w, last.key);
      forall i | 0 <= i < |init|
        ensures init[i].key != last.key
      {
        assert init[i] == d[i];
      }
    }
  }

  /** `index[w]` of the source's `defaultdict(list)`: missing words read as an empty list. */
  function Lookup(index: map<string, seq<string>>, w: string): seq<string> {
    if w in index then index[w] else []
  }

  /** `index` is the keyword index of `d`: one non-empty posting list per word that occurs. */
  ghost predicate IndexOf(d: Dict<string>, index: map<string, seq<string>>) {
    forall w :: Lookup(index, w) == Postings(d, w) && (w in index ==> index[w] != [])
  }

  lemma PostingsSnoc(d: Dict<string>, i: nat, w: string)
    requires i < |d|
    ensures Postings(d[..i + 1], w) == Postings(d[..i], w) + (if w in Words(d[i].value) then [d[i].key] else [])
  {
    assert d[..i + 1][..i] == d[..i];
  }

  /** `index` with `name` appended under each of `words` and nothing else changed. */
  ghost predicate Appended(index: map<string, seq<string>>, name: string, words: set<string>, index': map<string, seq<string>>) {
    forall w :: Lookup(index', w) == Lookup(index, w) + (if w in words then [name] else []) && (w in index' <==> w in index || w in words)
  }

  /**
    The inner loop of `_build_index`: append `name` under each word. The
    words are visited in an arbitrary order, as Python iterates a set.
   */
  method AppendUnder(index: map<string, seq<string>>, name: string, words: set<string>) returns (index': map<string, seq<string>>)
    ensures Appended(index, name, words, index')
  {
    index' := index;
    var todo := words;
    while todo != {}
      invariant todo <= words
      invariant Appended(index, name, words - todo, index')
      decreases |todo|
    {
      var w :| w in todo;
      index' := index'[w := Lookup(index', w) + [name]];
      assert words - (todo - {w}) == (words - todo) + {w};
      todo := todo - {w};
    }
  }

  /** Appending the next template under the words of its content extends the index by that template. */
  lemma IndexStep(d: Dict<string>, i: nat, index: map<string, seq<string>>, index': map<string, seq<string>>)
    requires i < |d| && IndexOf(d[..i], index)
    requires Appended(index, d[i].key, Words(d[i].value), index')
    ensures IndexOf(d[..i + 1], index')
  {
    forall w
      ensures Lookup(index', w) == Postings(d[..i + 1], w)
    {
      PostingsSnoc(d, i, w);
    }
  }

  /** `_build_index`: for every template, for every distinct word of its content, append the template's name to that word's list. */
  method BuildIndex(d: Dict<string>) returns (index: map<string, seq<string>>)
    ensures IndexOf(d, index)
  {
    index := map[];
    for i := 0 to |d|
      invariant IndexOf(d[..i], index)
    {
      var name, content := d[i].key, d[i].value;
      var index' := AppendUnder(index, name, Words(content));
      IndexStep(d, i, index, index');
      index := index';
    }
    assert d[..|d|] == d;
  }

  /** The recommender object: the templates it was built from and their index. */
  datatype TemplateRecommender = TemplateRecommender(templates: Dict<string>, index: map<string, seq<string>>)

  ghost predicate WellBuilt(r: TemplateRecommender) {
    Valid(r.templates) && IndexOf(r.templates, r.index)
  }

  /** `TemplateRecommender(templates)`. */
  method NewRecommender(templates: Dict<string>) returns (r: TemplateRecommender)
    requires Valid(templates)
    ensures r.templates == templates && WellBuilt(r)
  {
    var index := BuildIndex(templates);
    r := TemplateRecommender(templates, index);
  }

  // ---------------------------------------------------------------------------
  // Scores
  // ---------------------------------------------------------------------------

  /** The content of template `t`, or nothing when there is no such template. */
  function Content(d: Dict<string>, t: string): string {
    Get(d, t).GetOr("")
  }

  /** How many of `words` the content of template `t` holds. */
  function ContentHits(d: Dict<string>, words: set<string>, t: string): nat {
    |set w | w in words && w in Words(Content(d, t))|
  }

  /** How many of `words` occur inside the lower-cased name `t`. */
  function NameHits(words: set<string>, t: string): nat {
    |set w | w in words && Contains(Lower(t), w)|
  }

  /** The score of template `t` for a text whose words are `words`. */
  function Score(d: Dict<string>, words: set<string>, t: string): nat {
    ContentHits(d, words, t) + 2 * NameHits(words, t)
  }

  /** A template scores at all exactly when it shares a word with the text or has one in its name. */
  lemma ScorePositive(d: Dict<string>, words: set<string>, t: string)
    ensures Score(d, words, t) >= 1 <==>
      exists w :: w in words && (w in Words(Content(d, t)) || Contains(Lower(t), w))
  {
    var a := set w | w in words && w in Words(Content(d, t));
    var b := set w | w in words && Contains(Lower(t), w);
    if exists w :: w in words && (w in Words(Content(d, t)) || Contains(Lower(t), w)) {
      var w :| w in words && (w in Words(Content(d, t)) || Contains(Lower(t), w));
      assert w in a || w in b;
    }
    if |a| > 0 {
      var w :| w in a;
    } else if |b| > 0 {
      var w :| w in b;
    }
  }

  /** The running tally of the index phase: words in `done` whose posting list names `t`. */
  function IndexHits(index: map<string, seq<string>>, done: set<string>, t: string): nat {
    |set w | w in done && t in Lookup(index, w)|
  }

  /** Counting through the index counts the words the template's content holds. */
  lemma IndexHitsAreContentHits(d: Dict<string>, index: map<string, seq<string>>, words: set<string>, t: string)
    requires Valid(d) && IndexOf(d, index) && HasKey(d, t)
    ensures IndexHits(index, words, t) == ContentHits(d, words, t)
  {
    forall w | w in words
      ensures t in Lookup(index, w) <==> w in Words(Content(d, t))
    {
      PostingsMembership(d, w, t);
      var i :| 0 <= i < |d| && d[i].key == t;
      if exists j :: 0 <= j < |d| && d[j].key == t && w in Words(d[j].value) {
        var j :| 0 <= j < |d| && d[j].key == t && w in Words(d[j].value);
        assert i == j;
      }
      GetFindsItem(d, i);
    }
    assert (set w | w in words && t in Lookup(index, w)) == (set w | w in words && w in Words(Content(d, t)));
  }

  /** Counting one more word through the index adds one exactly when its posting list names `t`. */
  lemma IndexHitsStep(index: map<string, seq<string>>, done: set<string>, w: string, t: string)
    requires w !in done
    ensures IndexHits(index, done + {w}, t) == IndexHits(index, done, t) + (if t in Lookup(index, w) then 1 else 0)
  {
    var before := set v | v in done && t in Lookup(index, v);
    var after := set v | v in done + {w} && t in Lookup(index, v);
    assert after == before + (if t in Lookup(index, w) then {w} else {});
  }

  /** Counting one more word against a name adds one exactly when the word is inside it. */
  lemma NameHitsStep(done: set<string>, w: string, t: string)
    requires w !in done
    ensures NameHits(done + {w}, t) == NameHits(done, t) + (if Contains(Lower(t), w) then 1 else 0)
  {
    var before := set v | v in done && Contains(Lower(t), v);
    var after := set v | v in done + {w} && Contains(Lower(t), v);
    assert after == before + (if Contains(Lower(t), w) then {w} else {});
  }

  /** The source's `defaultdict(int)` read at `t`. */
  function Tally(scores: map<string, nat>, t: string): nat {
    if t in scores then scores[t] else 0
  }

  /** `scores[t] += 1` for every name of a posting list. */
  method AddOne(scores: map<string, nat>, postings: seq<string>) returns (scores': map<string, nat>)
    requires Distinct(postings)
    requires forall t :: t in scores ==> scores[t] >= 1
    ensures forall t :: Tally(scores', t) == Tally(scores, t) + (if t in postings then 1 else 0)
    ensures forall t :: t in scores' ==> scores'[t] >= 1
  {
    scores' := scores;
    for k := 0 to |postings|
      invariant forall t :: Tally(scores', t) == Tally(scores, t) + (if t in postings[..k] then 1 else 0)
      invariant forall t :: t in scores' ==> scores'[t] >= 1
    {
      var t := postings[k];
      assert t !in postings[..k];
      assert postings[..k + 1] == postings[..k] + [t];
      scores' := scores'[t := Tally(scores', t) + 1];
    }
    assert postings[..|postings|] == postings;
  }

  /** The first scoring loop: one point per text word whose posting list names the template. */
  method IndexTally(index: map<string, seq<string>>, words: set<string>) returns (scores: map<string, nat>)
    requires forall w :: Distinct(Lookup(index, w))
    ensures forall t :: Tally(scores, t) == IndexHits(index, words, t)
    ensures forall t :: t in scores ==> scores[t] >= 1
  {
    scores := map[];
    var todo := words;
    while todo != {}
      invariant todo <= words
      invariant forall t :: t in scores ==> scores[t] >= 1
      invariant forall t :: Tally(scores, t) == IndexHits(index, words - todo, t)
      decreases |todo|
    {
      var w :| w in todo;
      ghost var done := words - todo;
      var postings := Lookup(index, w);
      scores := AddOne(scores, postings);
      todo := todo - {w};
      forall t
        ensures Tally(scores, t) == IndexHits(index, done + {w}, t)
      {
        IndexHitsStep(index, done, w, t);
      }
      assert words - todo == done + {w};
    }
    assert words - todo == words;
  }

  /** The body of the second scoring loop for one template: two points per text word inside its lower-cased name. */
  method NameBonus(scores: map<string, nat>, template: string, words: set<string>) returns (scores': map<string, nat>)
    requires forall t :: t in scores ==> scores[t] >= 1
    ensures Tally(scores', template) == Tally(scores, template) + 2 * NameHits(words, template)
    ensures forall t :: t != template ==> Tally(scores', t) == Tally(scores, t)
    ensures forall t :: t in scores' ==> scores'[t] >= 1
  {
    scores' := scores;
    var rest := words;
    while rest != {}
      invariant rest <= words
      invariant forall t :: t in scores' ==> scores'[t] >= 1
      invariant forall t :: t != template ==> Tally(scores', t) == Tally(scores, t)
      invariant Tally(scores', template) == Tally(scores, template) + 2 * NameHits(words - rest, template)
      decreases |rest|
    {
      var word :| word in rest;
      ghost var done := words - rest;
      if Contains(Lower(template), word) {
        scores' := scores'[template := Tally(scores', template) + 2];
      }
      rest := rest - {word};
      NameHitsStep(done, word, template);
      assert words - rest == done + {word};
    }
    assert words - rest == words;
  }

  /** With distinct keys every posting list is free of repeats. */
  lemma IndexDistinct(r: TemplateRecommender)
    requires WellBuilt(r)
    ensures forall w :: Distinct(Lookup(r.index, w))
  {
    forall w
      ensures Distinct(Lookup(r.index, w))
    {
      PostingsDistinct(r.templates, w);
    }
  }

  /** A name outside the templates is in no posting list, so it gains no point through the index. */
  lemma NoIndexHitsOutside(d: Dict<string>, index: map<string, seq<string>>, words: set<string>, t: string)
    requires IndexOf(d, index) && !HasKey(d, t)
    ensures IndexHits(index, words, t) == 0
  {
    forall w | w in words
      ensures t !in Lookup(index, w)
    {
      PostingsMembership(d, w, t);
    }
    assert (set w | w in words && t in Lookup(index, w)) == {};
  }

  /**
    The two scoring loops of `recommend`: one over the text's words through
    the index, then one over the templates and the text's words for the
    name bonus. Only templates that gain points get an entry.
   */
  method TallyScores(r: TemplateRecommender, words: set<string>) returns (scores: map<string, nat>)
    requires WellBuilt(r)
    ensures forall t :: Tally(scores, t) == (if HasKey(r.templates, t) then Score(r.templates, words, t) else 0)
    ensures forall t :: t in scores ==> scores[t] >= 1
  {
    var d := r.templates;
    IndexDistinct(r);
    var indexScores := IndexTally(r.index, words);
    var names := Keys(d);
    assert Distinct(names);
    scores := NameBonuses(indexScores, names, words);
    forall t
      ensures Tally(scores, t) == (if HasKey(d, t) then Score(d, words, t) else 0)
    {
      KeysMembership(d, t);
      if HasKey(d, t) {
        IndexHitsAreContentHits(d, r.index, words, t);
      } else {
        NoIndexHitsOutside(d, r.index, words, t);
      }
    }
  }

  /** The second scoring loop: the name bonus for every template in `names`, each named once. */
  method NameBonuses(scores: map<string, nat>, names: seq<string>, words: set<string>) returns (scores': map<string, nat>)
    requires Distinct(names)
    requires forall t :: t in scores ==> scores[t] >= 1
    ensures forall t :: Tally(scores', t) == Tally(scores, t) + (if t in names then 2 * NameHits(words, t) else 0)
    ensures forall t :: t in scores' ==> scores'[t] >= 1
  {
    scores' := scores;
    for i := 0 to |names|
      invariant forall t :: t in scores' ==> scores'[t] >= 1
      invariant forall t :: Tally(scores', t) == Tally(scores, t) + (if t in names[..i] then 2 * NameHits(words, t) else 0)
    {
      var template := names[i];
      assert template !in names[..i];
      assert names[..i + 1] == names[..i] + [template];
      scores' := NameBonus(scores', template, words);
    }
    assert names[..|names|] == names;
  }

  // ---------------------------------------------------------------------------
  // recommend
  // ---------------------------------------------------------------------------

  /** A finite non-empty set of scored names has one of highest score. */
  lemma {:induction false} MaxExists(scores: map<string, nat>, pool: set<string>)
    requires pool != {} && pool <= scores.Keys
    ensures exists best :: best in pool && forall t :: t in pool ==> scores[t] <= scores[best]
    decreases |pool|
  {
    var x :| x in pool;
    var rest := pool - {x};
    if rest == {} {
      assert pool == {x};
      assert x in pool && forall t :: t in pool ==> scores[t] <= scores[x];
    } else {
      MaxExists(scores, rest);
      var b :| b in rest && forall t :: t in rest ==> scores[t] <= scores[b];
      var best := if scores[x] <= scores[b] then b else x;
      assert pool == rest + {x};
      assert best in pool && forall t :: t in pool ==> scores[t] <= scores[best];
    }
  }

  /**
    `sorted(scores.items(), key=score, reverse=True)[:limit]`: repeatedly
    take a remaining name of highest score. Among equal scores the source
    follows the order in which names entered the tally, which depends on
    Python's iteration order of a set of strings; here any of them may come
    first.
   */
  method TopByScore(scores: map<string, nat>, limit: nat) returns (names: seq<string>)
    ensures |names| <= limit && Distinct(names)
    ensures forall n :: n in names ==> n in scores
    ensures forall i, j :: 0 <= i < j < |names| ==> scores[names[i]] >= scores[names[j]]
    ensures forall t :: t in scores && t !in names ==>
      |names| == limit && forall n :: n in names ==> scores[n] >= scores[t]
  {
    var pool := scores.Keys;
    names := [];
    while |names| < limit && pool != {}
      invariant pool <= scores.Keys && |names| <= limit && Distinct(names)
      invariant forall n :: n in names ==> n in scores && n !in pool
      invariant forall t :: t in scores ==> t in pool || t in names
      invariant forall i, j :: 0 <= i < j < |names| ==> scores[names[i]] >= scores[names[j]]
      invariant forall n, t :: n in names && t in pool ==> scores[n] >= scores[t]
      decreases |pool|
    {
      MaxExists(scores, pool);
      var best :| best in pool && forall t :: t in pool ==> scores[t] <= scores[best];
      names := names + [best];
      pool := pool - {best};
    }
  }

  /**
    `recommend(text, limit)`: nothing for an empty text; otherwise at most
    `limit` distinct template names, each scoring at least one, best first,
    and no template left out that scores more than one that is listed.
   */
  method Recommend(r: TemplateRecommender, text: string, limit: nat) returns (names: seq<string>)
    requires WellBuilt(r)
    ensures text == "" ==> names == []
    ensures |names| <= limit && Distinct(names)
    ensures forall n :: n in names ==> HasKey(r.templates, n) && Score(r.templates, Words(text), n) >= 1
    ensures forall i, j :: 0 <= i < j < |names| ==>
      Score(r.templates, Words(text), names[i]) >= Score(r.templates, Words(text), names[j])
    ensures forall t :: HasKey(r.templates, t) && Score(r.templates, Words(text), t) >= 1 && t !in names ==>
      |names| == limit && forall n :: n in names ==> Score(r.templates, Words(text), n) >= Score(r.templates, Words(text), t)
  {
    if text == "" {
      return [];
    }
    var words := Words(text);
    var scores := TallyScores(r, words);
    names := TopByScore(scores, limit);
    forall t | HasKey(r.templates, t) && Score(r.templates, words, t) >= 1
      ensures t in scores && scores[t] == Score(r.templates, words, t)
    {
      assert Tally(scores, t) >= 1;
    }
    forall n | n in names
      ensures HasKey(r.templates, n) && scores[n] == Score(r.templates, words, n)
    {
      assert Tally(scores, n) == scores[n] >= 1;
    }
  }
}

=== FILE: search.dfy ===
/**
  `search_all_content`: a case-insensitive substring search over the report
  history, the saved templates and the current draft.
 */
module Search {
  import opened Common
  import opened Text
  import opened Dicts
  import opened History

  /** How much of a template or draft a hit carries. */
  const PreviewLength: nat := 200

  datatype TemplateHit = TemplateHit(name: string, content: string)

  datatype DraftHit = DraftHit(kind: string, preview: string)

  datatype SearchResults = SearchResults(reports: seq<Entry>, templates: seq<TemplateHit>, drafts: seq<DraftHit>)

  /** `report.get(field, '')`. */
  function Field(v: Option<string>): string {
    v.GetOr("")
  }

  /** `q` (already lower-cased) occurs in the lower-cased name, draft or AI report of `r`. */
  predicate ReportMatches(q: string, r: Entry) {
    Contains(Lower(Field(r.name)), q) || Contains(Lower(Field(r.draft)), q) || Contains(Lower(Field(r.aiReport)), q)
  }

  predicate TemplateMatches(q: string, it: Item<string>) {
    Contains(Lower(it.key), q) || Contains(Lower(it.value), q)
  }

  /** The matching reports, in history order. */
  function MatchingReports(reports: seq<Entry>, q: string): seq<Entry>
  {
    if |reports| == 0 then []
    else
      var last := reports[|reports| - 1];
      MatchingReports(reports[..|reports| - 1], q) + (if ReportMatches(q, last) then [last] else [])
  }

  lemma {:induction false} MatchingReportsMembership(reports: seq<Entry>, q: string)
    ensures forall r :: r in MatchingReports(reports, q) <==> r in reports && ReportMatches(q, r)
  {
    if |reports| > 0 {
      var init := reports[..|reports| - 1];
      MatchingReportsMembership(init, q);
      assert reports == init + [reports[|reports| - 1]];
    }
  }

  /** The empty query is in every string, so it finds the whole history in order. */
  lemma {:induction false} EmptyQueryFindsAll(reports: seq<Entry>)
    ensures MatchingReports(reports, "") == reports
  {
    if |reports| > 0 {
      var init := reports[..|reports| - 1];
      EmptyQueryFindsAll(init);
      assert OccursAt(Lower(Field(reports[|reports| - 1].name)), "", 0);
      assert reports == init + [reports[|reports| - 1]];
    }
  }

  /** The template hits: name and first `PreviewLength` characters of each matching template, in template order. */
  function MatchingTemplates(d: Dict<string>, q: string): seq<TemplateHit>
  {
    if |d| == 0 then []
    else
      var last := d[|d| - 1];
      MatchingTemplates(d[..|d| - 1], q)
        + (if TemplateMatches(q, last) then [TemplateHit(last.key, Take(last.value, PreviewLength))] else [])
  }

  lemma {:induction false} MatchingTemplatesMembership(d: Dict<string>, q: string, hit: TemplateHit)
    ensures hit in MatchingTemplates(d, q) <==>
      exists i :: 0 <= i < |d| && TemplateMatches(q, d[i]) && hit == TemplateHit(d[i].key, Take(d[i].value, PreviewLength))
  {
    if |d| > 0 {
      var init := d[..|d| - 1];
      MatchingTemplatesMembership(init, q, hit);
      if hit in MatchingTemplates(init, q) {
        var i :| 0 <= i < |init| && TemplateMatches(q, init[i]) && hit == TemplateHit(init[i].key, Take(init[i].value, PreviewLength));
        assert d[i] == init[i];
      }
      if exists i :: 0 <= i < |d| && TemplateMatches(q, d[i]) && hit == TemplateHit(d[i].key, Take(d[i].value, PreviewLength)) {
        var i :| 0 <= i < |d| && TemplateMatches(q, d[i]) && hit == TemplateHit(d[i].key, Take(d[i].value, PreviewLength));
        if i < |init| {
          assert init[i] == d[i];
        }
      }
    }
  }

  /**
    Every template hit carries at most `PreviewLength` characters, a prefix
    of the content of the template it names; a template that is no longer
    than that is carried whole.
   */
  lemma TemplatePreviewsAreShort(d: Dict<string>, q: string, hit: TemplateHit)
    requires hit in MatchingTemplates(d, q)
    ensures |hit.content| <= PreviewLength
    ensures exists i :: 0 <= i < |d| && d[i].key == hit.name && hit.content <= d[i].value
                        && (|d[i].value| <= PreviewLength ==> hit.content == d[i].value)
  {
    MatchingTemplatesMembership(d, q, hit);
  }

  /** `search_all_content(query, reports, templates, drafts)`. */
  method SearchAll(query: string, reports: seq<Entry>, templates: Dict<string>, draft: string) returns (res: SearchResults)
    ensures res.reports == MatchingReports(reports, Lower(query))
    ensures forall r :: r in res.reports <==> r in reports && ReportMatches(Lower(query), r)
    ensures res.templates == MatchingTemplates(templates, Lower(query))
    ensures |res.drafts| <= 1
    ensures |res.drafts| == 1 <==> Contains(Lower(draft), Lower(query))
    ensures forall h :: h in res.drafts ==> h == DraftHit("current_draft", Take(draft, PreviewLength))
  {
    var q := Lower(query);
    var found: seq<Entry> := [];
    for i := 0 to |reports|
      invariant found == MatchingReports(reports[..i], q)
    {
      assert reports[..i + 1][..i] == reports[..i];
      var report := reports[i];
      if Contains(Lower(Field(report.name)), q) || Contains(Lower(Field(report.draft)), q) || Contains(Lower(Field(report.aiReport)), q) {
        found := found + [report];
      }
    }
    assert reports[..|reports|] == reports;
    MatchingReportsMembership(reports, q);
    var hits: seq<TemplateHit> := [];
    for i := 0 to |templates|
      invariant hits == MatchingTemplates(templates[..i], q)
    {
      assert templates[..i + 1][..i] == templates[..i];
      var name, content := templates[i].key, templates[i].value;
      if Contains(Lower(name), q) || Contains(Lower(content), q) {
        hits := hits + [TemplateHit(name, Take(content, PreviewLength))];
      }
    }
    assert templates[..|templates|] == templates;
    var drafts: seq<DraftHit> := [];
    if Contains(Lower(draft), q) {
      drafts := drafts + [DraftHit("current_draft", Take(draft, PreviewLength))];
    }
    res := SearchResults(found, hits, drafts);
  }
}

=== FILE: session.dfy ===
/**
  The working state of one session and the buttons that change it:
  generating the structured report from the draft, finalizing it, dictation
  and inserted text, and moving reports in and out of the history. Clock
  readings are parameters.
 */
module Session {
  import opened Common
  import opened Text
  import opened Dicts
  import opened History
  import opened NormalValues
  import opened Export
  import opened Generated

  datatype State = State(
    draft: string,
    aiReport: string,
    reportDate: string,
    reportTimestamp: string,
    isFinalized: bool,
    reviewerNotes: string,
    patientInfo: Dict<string>,
    history: seq<Entry>,
    user: string)

  /** The state a new session starts in, with the history read from storage. */
  function Initial(history: seq<Entry>, user: string): State {
    State("", "", "", "", false, "", [], history, user)
  }

  // ---------------------------------------------------------------------------
  // Generating and finalizing the report
  // ---------------------------------------------------------------------------

  /**
    "Generate AI Report": with a non-empty draft, a fresh report dated by the
    clock readings, and no longer final; with an empty draft, nothing changes.
   */
  function Generate(s: State, date: string, timestamp: string): (r: State)
    ensures s.draft == "" ==> r == s
    ensures s.draft != "" ==> && r.aiReport == GeneratedReport(s.draft) && !r.isFinalized
                              && r.reportDate == date && r.reportTimestamp == timestamp
    ensures r.draft == s.draft && r.patientInfo == s.patientInfo && r.history == s.history
            && r.reviewerNotes == s.reviewerNotes
  {
    if s.draft == "" then s
    else s.(aiReport := GeneratedReport(s.draft), reportDate := date, reportTimestamp := timestamp,
            isFinalized := false)
  }

  /** "Finalize Report": offered only while there is a report that is not final yet. */
  function Finalize(s: State): (r: State)
    ensures r.isFinalized <==> s.isFinalized || s.aiReport != ""
    ensures r.(isFinalized := s.isFinalized) == s
  {
    if s.aiReport != "" && !s.isFinalized then s.(isFinalized := true) else s
  }

  /** Finalizing twice is finalizing once. */
  lemma FinalizeIdempotent(s: State)
    ensures Finalize(Finalize(s)) == Finalize(s)
  {
  }

  /**
    The lock is not enforced: generating again from a non-empty draft
    replaces a finalized report and makes it editable again.
   */
  lemma GenerateReopensFinalizedReport(s: State, date: string, timestamp: string)
    requires s.aiReport != "" && s.draft != ""
    ensures Finalize(s).isFinalized
    ensures !Generate(Finalize(s), date, timestamp).isFinalized
    ensures Generate(Finalize(s), date, timestamp).aiReport == GeneratedReport(s.draft)
  {
  }

  /** "Clear" empties the draft, after which generating changes nothing. */
  function ClearDraft(s: State): (r: State)
    ensures r.draft == "" && r.(draft := s.draft) == s
  {
    s.(draft := "")
  }

  lemma GenerateAfterClearIsNoOp(s: State, date: string, timestamp: string)
    ensures Generate(ClearDraft(s), date, timestamp) == ClearDraft(s)
  {
  }

  // ---------------------------------------------------------------------------
  // Adding text to the draft
  // ---------------------------------------------------------------------------

  /** `draft += "\n" + text if draft else text`: a new line of its own unless the draft is empty. */
  function AppendBlock(draft: string, text: string): (r: string)
    ensures draft == "" ==> r == text
    ensures draft != "" ==> |r| == |draft| + 1 + |text| && draft <= r && r[|draft|] == '\n' && EndsWith(r, text)
  {
    if draft != "" then draft + "\n" + text else text
  }

  /** Dictated text is appended to the draft; empty input changes nothing. */
  function Dictate(s: State, voice: string): (r: State)
    ensures voice == "" ==> r == s
    ensures voice != "" ==> r.draft == AppendBlock(s.draft, voice)
    ensures r.(draft := s.draft) == s
  {
    if voice != "" then s.(draft := AppendBlock(s.draft, voice)) else s
  }

  /**
    "Insert Normal Ranges" for the selected category: the old draft stays in
    front, the ranges text ends the new draft, and nothing else changes.
   */
  function InsertNormalRanges(s: State, category: string): (r: State)
    ensures s.draft <= r.draft && EndsWith(r.draft, NormalRangesText(category))
    ensures r.(draft := s.draft) == s
  {
    s.(draft := AppendBlock(s.draft, NormalRangesText(category)))
  }

  /** Text appended to the draft is found in the result. */
  lemma AppendedTextFound(draft: string, text: string, line: string)
    requires Contains(text, line)
    ensures Contains(AppendBlock(draft, text), line)
  {
    var i :| 0 <= i <= |text| && OccursAt(text, line, i);
    var lead := if draft != "" then draft + "\n" else "";
    var r := AppendBlock(draft, text);
    assert r == lead + text;
    assert r[|lead| + i..|lead| + i + |line|] == text[i..i + |line|];
    assert OccursAt(r, line, |lead| + i);
  }

  lemma ContainsInMiddle(a: string, line: string, b: string)
    ensures Contains(a + line + b, line)
  {
    assert (a + line + b)[|a|..|a| + |line|] == line;
    assert OccursAt(a + line + b, line, |a|);
  }

  lemma FoundInTail(head: string, pre: string, line: string, post: string)
    ensures Contains(head + (pre + line + post), line)
  {
    assert head + (pre + line + post) == (head + pre) + line + post;
    ContainsInMiddle(head + pre, line, post);
  }

  /** A heading followed by the range lines holds the line of every entry. */
  lemma RangeTextHoldsEntry(head: string, values: Dict<string>, i: nat)
    requires i < |values|
    ensures Contains(head + RangeLines(values), RangeLine(values[i]))
  {
    RangeLinesHoldEachEntry(values, i);
    var pre, post :| RangeLines(values) == pre + RangeLine(values[i]) + post;
    FoundInTail(head, pre, RangeLine(values[i]), post);
  }

  /** Every reference range of the category appears in the draft as its own bullet line. */
  lemma InsertedRangesListEveryValue(s: State, category: string, i: nat)
    requires i < |GetNormalValues(category)|
    ensures Contains(InsertNormalRanges(s, category).draft, RangeLine(GetNormalValues(category)[i]))
  {
    var values := GetNormalValues(category);
    RangeTextHoldsEntry("Normal ranges for " + category + ":\n", values, i);
    AppendedTextFound(s.draft, NormalRangesText(category), RangeLine(values[i]));
  }

  /**
    Clicking a suggested template appends it on a new line; a name that is
    no longer among the saved templates raises `KeyError`.
   */
  function ApplySuggestion(s: State, templates: Dict<string>, name: string): (r: Result<State>)
    ensures r.Ok? <==> HasKey(templates, name)
    ensures r.Err? ==> r.error == KeyError(name)
    ensures r.Ok? ==> r.value.(draft := s.draft) == s
  {
    match Index(templates, name)
    case Err(e) => Err(e)
    case Ok(t) => Ok(s.(draft := s.draft + "\n" + t))
  }

  /** The suggestion lands after the draft, separated by a newline, verbatim. */
  lemma SuggestionAppendsTemplate(s: State, templates: Dict<string>, name: string)
    requires HasKey(templates, name)
    ensures var d := ApplySuggestion(s, templates, name).value.draft;
      && s.draft + "\n" <= d
      && d[|s.draft| + 1..] == Get(templates, name).value
  {
  }

  // ---------------------------------------------------------------------------
  // The report history
  // ---------------------------------------------------------------------------

  /** The history entry "Add to History" records for the current report. */
  function Snapshot(s: State, name: string): Entry {
    Entry(Some(name), Some(s.reportDate), Some(s.reportTimestamp), Some(s.patientInfo), Some(s.draft),
          Some(s.aiReport), Some(s.reviewerNotes), Some(s.isFinalized), Some(s.user))
  }

  /**
    "Add to History" is offered only while there is a report: the snapshot
    goes to the head of the history and nothing else changes.
   */
  function AddToHistory(s: State, name: string): (r: State)
    ensures s.aiReport == "" ==> r == s
    ensures s.aiReport != "" ==> |r.history| == |s.history| + 1 && r.history[0] == Snapshot(s, name)
                                 && r.history[1..] == s.history
    ensures r.(history := s.history) == s
  {
    if s.aiReport == "" then s else s.(history := Add(s.history, Snapshot(s, name)))
  }

  /**
    "Load Draft": the draft, patient information and report must be present
    in the entry; reviewer notes default to none and the final flag to false.
   */
  function LoadFromHistory(s: State, e: Entry): (r: Result<State>)
    ensures r.Ok? <==> e.draft.Some? && e.patientInfo.Some? && e.aiReport.Some?
    ensures r.Err? ==> r.error.KeyError?
    ensures r.Ok? ==> r.value.draft == e.draft.value && r.value.patientInfo == e.patientInfo.value
                      && r.value.aiReport == e.aiReport.value
    ensures r.Ok? ==> (e.reviewerNotes.None? ==> r.value.reviewerNotes == "")
                      && (e.reviewerNotes.Some? ==> r.value.reviewerNotes == e.reviewerNotes.value)
    ensures r.Ok? ==> (e.finalized.None? ==> !r.value.isFinalized)
                      && (e.finalized.Some? ==> r.value.isFinalized == e.finalized.value)
    ensures r.Ok? ==> r.value.history == s.history && r.value.reportDate == s.reportDate && r.value.user == s.user
                      && r.value.reportTimestamp == s.reportTimestamp
  {
    if e.draft.None? then Err(KeyError("draft"))
    else if e.patientInfo.None? then Err(KeyError("patient_info"))
    else if e.aiReport.None? then Err(KeyError("ai_report"))
    else Ok(s.(draft := e.draft.value, patientInfo := e.patientInfo.value, aiReport := e.aiReport.value,
               reviewerNotes := e.reviewerNotes.GetOr(""), isFinalized := e.finalized.GetOr(false)))
  }

  /**
    Loading the entry just added restores the draft, the patient
    information, the report, the reviewer notes and the final flag; the
    report date is not restored and stays whatever the session holds.
   */
  lemma LoadRestoresAdded(s: State, name: string, other: State)
    requires s.aiReport != ""
    ensures LoadFromHistory(other, AddToHistory(s, name).history[0])
         == Ok(other.(draft := s.draft, patientInfo := s.patientInfo, aiReport := s.aiReport,
                      reviewerNotes := s.reviewerNotes, isFinalized := s.isFinalized))
  {
  }

  /**
    "Delete": `history.remove(entry)`, which cuts out the first equal entry
    and keeps the others in order.
   */
  function DeleteFromHistory(s: State, e: Entry): (r: Result<State>)
    ensures r.Ok? <==> e in s.history
    ensures r.Err? ==> r.error == ValueError
    ensures r.Ok? ==> RemoveFirst(s.history, e) == Ok(r.value.history)
    ensures r.Ok? ==> exists k :: 0 <= k < |s.history| && s.history[k] == e && e !in s.history[..k]
                                  && r.value.history == s.history[..k] + s.history[k + 1..]
    ensures r.Ok? ==> r.value.(history := s.history) == s && |r.value.history| == |s.history| - 1
  {
    match RemoveFirst(s.history, e)
    case Err(err) => Err(err)
    case Ok(h) => Ok(s.(history := h))
  }

  /** Deleting the entry just added gives back the session as it was. */
  lemma DeleteUndoesAdd(s: State, name: string)
    requires s.aiReport != ""
    ensures DeleteFromHistory(AddToHistory(s, name), Snapshot(s, name)) == Ok(s)
  {
    var h := AddToHistory(s, name).history;
    assert h[0] == Snapshot(s, name);
    assert FirstIndex(h, Snapshot(s, name)) == 0;
    assert h[..0] + h[1..] == s.history;
    assert RemoveFirst(h, Snapshot(s, name)) == Ok(s.history);
  }

  /** The report just added heads the page its author sees. */
  lemma AddedReportListedFirst(s: State, name: string, isAdmin: bool)
    requires s.aiReport != ""
    ensures Visible(AddToHistory(s, name).history, s.user, isAdmin)[0] == Snapshot(s, name)
  {
    AddedEntryComesFirst(s.history, Snapshot(s, name), s.user, isAdmin);
  }

  /** "Clear All History", administrators only. */
  function ClearHistory(s: State, isAdmin: bool): (r: State)
    ensures r.(history := s.history) == s
    ensures r.history == if isAdmin then [] else s.history
  {
    s.(history := Clear(s.history, isAdmin))
  }

  /**
    After an administrator clears the history no one is shown any report, and
    the next report added is the only one kept.
   */
  lemma ClearedHistoryStartsOver(s: State, name: string, user: string, isAdmin: bool)
    requires s.aiReport != ""
    ensures Visible(ClearHistory(s, true).history, user, isAdmin) == []
    ensures AddToHistory(ClearHistory(s, true), name).history == [Snapshot(s, name)]
  {
    assert OwnedBy([], user) == [];
  }
}

=== FILE: text.dfy ===
/**
  The Python string primitives the application is built from: `lower`,
  `upper`, the `in` substring test, `split(sep)`, `replace`, `strip`,
  `lstrip(chars)`, `startswith`, `endswith` and slicing `s[:n]`.
 */
module Text {
  import opened Common

  // ---------------------------------------------------------------------------
  // Character classes
  // ---------------------------------------------------------------------------

  /** The characters for which Python's `str.isspace` holds: what `strip()` removes. */
  const Whitespace: set<char> := {
    '\t', '\n', '\U{0B}', '\U{0C}', '\r', '\U{1C}', '\U{1D}', '\U{1E}', '\U{1F}', ' ',
    '\U{85}', '\U{A0}', '\U{1680}',
    '\U{2000}', '\U{2001}', '\U{2002}', '\U{2003}', '\U{2004}', '\U{2005}',
    '\U{2006}', '\U{2007}', '\U{2008}', '\U{2009}', '\U{200A}',
    '\U{2028}', '\U{2029}', '\U{202F}', '\U{205F}', '\U{3000}'
  }

  predicate IsAsciiUpper(c: char) { 'A' <= c <= 'Z' }

  predicate IsAsciiLower(c: char) { 'a' <= c <= 'z' }

  /** The regular-expression class `\w` on ASCII: letters, digits and `_`. */
  predicate IsWordChar(c: char) {
    IsAsciiUpper(c) || IsAsciiLower(c) || ('0' <= c <= '9') || c == '_'
  }

  function LowerChar(c: char): (d: char)
    ensures !IsAsciiUpper(d)
    ensures IsAsciiLower(d) <==> IsAsciiLower(c) || IsAsciiUpper(c)
  {
    if IsAsciiUpper(c) then (c as int + 32) as char else c
  }

  function UpperChar(c: char): (d: char)
    ensures !IsAsciiLower(d)
  {
    if IsAsciiLower(c) then (c as int - 32) as char else c
  }

  /** `s.lower()`: every ASCII capital replaced by its small letter, nothing else changed. */
  function Lower(s: string): (r: string)
    ensures |r| == |s|
    ensures forall i :: 0 <= i < |s| ==> r[i] == LowerChar(s[i])
  {
    seq(|s|, i requires 0 <= i < |s| => LowerChar(s[i]))
  }

  /** `s.upper()` on ASCII letters. */
  function Upper(s: string): (r: string)
    ensures |r| == |s|
    ensures forall i :: 0 <= i < |s| ==> r[i] == UpperChar(s[i])
  {
    seq(|s|, i requires 0 <= i < |s| => UpperChar(s[i]))
  }

  // ---------------------------------------------------------------------------
  // Substrings
  // ---------------------------------------------------------------------------

  predicate OccursAt(s: string, p: string, i: int) {
    0 <= i && i + |p| <= |s| && s[i..i + |p|] == p
  }

  /** Python's `p in s`: a plain substring test, blind to word boundaries. */
  predicate Contains(s: string, p: string) {
    exists i :: 0 <= i <= |s| && OccursAt(s, p, i)
  }

  /** The first occurrence of `p` in `s` at or after `from` (`s.find(p, from)`). */
  function FindFrom(s: string, p: string, from: nat): (r: Option<nat>)
    ensures r.Some? ==> from <= r.value && OccursAt(s, p, r.value)
    ensures r.Some? ==> forall j :: from <= j < r.value ==> !OccursAt(s, p, j)
    ensures r.None? ==> forall j :: from <= j ==> !OccursAt(s, p, j)
    decreases |s| - from
  {
    if from + |p| > |s| then None
    else if OccursAt(s, p, from) then Some(from)
    else FindFrom(s, p, from + 1)
  }

  function Find(s: string, p: string): (r: Option<nat>)
    ensures r.Some? <==> Contains(s, p)
    ensures r.Some? ==> OccursAt(s, p, r.value) && forall j :: 0 <= j < r.value ==> !OccursAt(s, p, j)
  {
    FindFrom(s, p, 0)
  }

  predicate StartsWith(s: string, p: string) { p <= s }

  predicate EndsWith(s: string, p: string) {
    |p| <= |s| && s[|s| - |p|..] == p
  }

  /** `s[:n]` for a non-negative `n`. */
  function Take(s: string, n: nat): (r: string)
    ensures |r| <= n && r <= s
    ensures |s| <= n ==> r == s
    ensures n <= |s| ==> |r| == n
  {
    if |s| <= n then s else s[..n]
  }

  // ---------------------------------------------------------------------------
  // split / join / replace
  // ---------------------------------------------------------------------------

  /** `s.split(sep)` for a non-empty separator (Python rejects an empty one). */
  function SplitOn(s: string, sep: string): (parts: seq<string>)
    requires sep != []
    ensures |parts| >= 1
    decreases |s|
  {
    match Find(s, sep)
    case None => [s]
    case Some(i) => [s[..i]] + SplitOn(s[i + |sep|..], sep)
  }

  /** `sep.join(parts)`. */
  function Join(parts: seq<string>, sep: string): string
  {
    if |parts| == 0 then ""
    else if |parts| == 1 then parts[0]
    else parts[0] + sep + Join(parts[1..], sep)
  }

  lemma JoinCons(head: string, tail: seq<string>, sep: string)
    requires |tail| >= 1
    ensures Join([head] + tail, sep) == head + sep + Join(tail, sep)
  {
    assert ([head] + tail)[1..] == tail;
  }

  /** Splitting and re-joining with the same separator gives the string back. */
  lemma {:induction false} JoinSplitOn(s: string, sep: string)
    requires sep != []
    ensures Join(SplitOn(s, sep), sep) == s
    decreases |s|
  {
    match Find(s, sep)
    case None =>
    case Some(i) =>
      var rest := s[i + |sep|..];
      var tail := SplitOn(rest, sep);
      assert SplitOn(s, sep) == [s[..i]] + tail;
      JoinSplitOn(rest, sep);
      JoinCons(s[..i], tail, sep);
      assert s[i..i + |sep|] == sep;
      assert s == s[..i] + sep + rest;
  }

  /** The text before the first occurrence of `sep` holds no occurrence of it. */
  lemma PrefixBeforeFirst(s: string, sep: string, i: nat)
    requires sep != []
    requires OccursAt(s, sep, i)
    requires forall j :: 0 <= j < i ==> !OccursAt(s, sep, j)
    ensures !Contains(s[..i], sep)
  {
    forall j | 0 <= j <= i && OccursAt(s[..i], sep, j)
      ensures false
    {
      assert s[..i][j..j + |sep|] == s[j..j + |sep|];
      assert OccursAt(s, sep, j);
    }
  }

  /** No piece produced by `split(sep)` contains `sep`. */
  lemma {:induction false} SplitOnPartsAvoidSep(s: string, sep: string)
    requires sep != []
    ensures forall k :: 0 <= k < |SplitOn(s, sep)| ==> !Contains(SplitOn(s, sep)[k], sep)
    decreases |s|
  {
    match Find(s, sep)
    case None =>
    case Some(i) =>
      var rest := s[i + |sep|..];
      SplitOnPartsAvoidSep(rest, sep);
      PrefixBeforeFirst(s, sep, i);
      var parts := SplitOn(s, sep);
      assert parts == [s[..i]] + SplitOn(rest, sep);
      forall k | 0 <= k < |parts|
        ensures !Contains(parts[k], sep)
      {
        if k > 0 {
          assert parts[k] == SplitOn(rest, sep)[k - 1];
        }
      }
  }

  /** A string holding no occurrence of the separator is its own single piece. */
  lemma SplitOnAbsent(s: string, sep: string)
    requires sep != [] && !Contains(s, sep)
    ensures SplitOn(s, sep) == [s]
  {
  }

  /**
    Splitting `a + sep + b`, when the first occurrence of `sep` is the one
    right after `a`, yields `a` followed by the pieces of `b`.
   */
  lemma SplitOnFirst(a: string, sep: string, b: string)
    requires sep != []
    requires forall j :: 0 <= j < |a| ==> !OccursAt(a + sep + b, sep, j)
    ensures SplitOn(a + sep + b, sep) == [a] + SplitOn(b, sep)
  {
    var s := a + sep + b;
    assert OccursAt(s, sep, |a|) by {
      assert s[|a|..|a| + |sep|] == sep;
    }
    assert Find(s, sep) == Some(|a|);
    assert s[..|a|] == a;
    assert s[|a| + |sep|..] == b;
  }

  /**
    `s.replace(pat, rep)`: every non-overlapping occurrence of `pat`, found
    scanning left to right, replaced by `rep`.
   */
  function Replace(s: string, pat: string, rep: string): string
    requires pat != []
    decreases |s|
  {
    match Find(s, pat)
    case None => s
    case Some(i) => s[..i] + rep + Replace(s[i + |pat|..], pat, rep)
  }

  /** The documented identity `s.replace(p, r) == r.join(s.split(p))`. */
  lemma {:induction false} ReplaceIsJoinOfSplit(s: string, pat: string, rep: string)
    requires pat != []
    ensures Replace(s, pat, rep) == Join(SplitOn(s, pat), rep)
    decreases |s|
  {
    match Find(s, pat)
    case None =>
    case Some(i) =>
      var rest := s[i + |pat|..];
      var tail := SplitOn(rest, pat);
      assert SplitOn(s, pat) == [s[..i]] + tail;
      assert Replace(s, pat, rep) == s[..i] + rep + Replace(rest, pat, rep);
      ReplaceIsJoinOfSplit(rest, pat, rep);
      JoinCons(s[..i], tail, rep);
  }

  /** Replacing a pattern that does not occur changes nothing. */
  lemma ReplaceAbsent(s: string, pat: string, rep: string)
    requires pat != [] && !Contains(s, pat)
    ensures Replace(s, pat, rep) == s
  {
  }

  // ---------------------------------------------------------------------------
  // strip / lstrip
  // ---------------------------------------------------------------------------

  /** `s.lstrip(chars)`: drops the longest prefix made of `chars`. */
  function LStripSet(s: string, chars: set<char>): (r: string)
    ensures |r| <= |s| && r == s[|s| - |r|..]
    ensures r == [] || r[0] !in chars
    ensures forall i :: 0 <= i < |s| - |r| ==> s[i] in chars
    decreases |s|
  {
    if |s| > 0 && s[0] in chars then LStripSet(s[1..], chars) else s
  }

  /** `s.rstrip(chars)`: drops the longest suffix made of `chars`. */
  function RStripSet(s: string, chars: set<char>): (r: string)
    ensures |r| <= |s| && r == s[..|r|]
    ensures r == [] || r[|r| - 1] !in chars
    ensures forall i :: |r| <= i < |s| ==> s[i] in chars
    decreases |s|
  {
    if |s| > 0 && s[|s| - 1] in chars then RStripSet(s[..|s| - 1], chars) else s
  }

  /** `s.strip()`. */
  function Strip(s: string): string {
    RStripSet(LStripSet(s, Whitespace), Whitespace)
  }

  predicate IsBlank(s: string) {
    forall i :: 0 <= i < |s| ==> s[i] in Whitespace
  }

  /** `s.strip()` is a slice of `s`. */
  lemma StripIsSlice(s: string)
    ensures Contains(s, Strip(s))
  {
    var l := LStripSet(s, Whitespace);
    var r := RStripSet(l, Whitespace);
    var i := |s| - |l|;
    assert l[..|r|] == s[i..i + |r|];
    assert OccursAt(s, r, i);
  }

  /** `s.strip()` neither starts nor ends with whitespace. */
  lemma StripEnds(s: string)
    ensures var r := Strip(s); r == [] || (r[0] !in Whitespace && r[|r| - 1] !in Whitespace)
  {
    var l := LStripSet(s, Whitespace);
    var r := RStripSet(l, Whitespace);
    if r != [] {
      assert r[0] == l[0];
    }
  }

  /** `s.strip()` is empty exactly when `s` is made of whitespace only. */
  lemma StripEmptyIffBlank(s: string)
    ensures Strip(s) == [] <==> IsBlank(s)
  {
    var l := LStripSet(s, Whitespace);
    var r := RStripSet(l, Whitespace);
    if r == [] {
      // a non-empty `l` would start with a non-blank character that `rstrip` keeps
      assert l == [];
    } else {
      var i := |s| - |l|;
      assert s[i] == l[0] == r[0];
    }
  }

  /** A string that neither starts nor ends with whitespace is left alone by `strip()`. */
  lemma StripUnchanged(s: string)
    requires s == [] || (s[0] !in Whitespace && s[|s| - 1] !in Whitespace)
    ensures Strip(s) == s
  {
  }
}

=== FILE: tokens.dfy ===
/**
  The recommender's tokenizer, `set(re.findall(r'\b[a-z]{4,}\b', s.lower()))`.
  A match of `\b[a-z]{4,}\b` must start where a word starts and, since
  `[a-z]` only consumes word characters, it can only end where that word
  ends; so the matches are exactly the maximal runs of word characters
  (ASCII letters, digits, `_`) that consist of four or more small letters.
 */
module Tokens {
  import opened Text

  /** The end of the run of word characters starting at `i`. */
  function RunEnd(s: string, i: nat): (j: nat)
    requires i <= |s|
    ensures i <= j <= |s|
    ensures forall k :: i <= k < j ==> IsWordChar(s[k])
    ensures j == |s| || !IsWordChar(s[j])
    decreases |s| - i
  {
    if i == |s| || !IsWordChar(s[i]) then i else RunEnd(s, i + 1)
  }

  /** `s` holds a word boundary at `i` from the left: no word character just before. */
  predicate OpensAt(s: string, i: nat) {
    i == 0 || (i <= |s| && !IsWordChar(s[i - 1]))
  }

  /** `s` holds a word boundary at `j` from the right: no word character at `j`. */
  predicate ClosesAt(s: string, j: nat) {
    j == |s| || (j < |s| && !IsWordChar(s[j]))
  }

  predicate AllWordChars(w: string) {
    forall k :: 0 <= k < |w| ==> IsWordChar(w[k])
  }

  /** `w` is a whole word of `s` at position `p`: a maximal run of word characters. */
  predicate WordAt(s: string, w: string, p: nat) {
    |w| > 0 && AllWordChars(w) && OccursAt(s, w, p) && OpensAt(s, p) && ClosesAt(s, p + |w|)
  }

  /** A position from which scanning sees whole words: at a boundary on one side or the other. */
  predicate ScanStart(s: string, i: nat) {
    i <= |s| && (OpensAt(s, i) || ClosesAt(s, i))
  }

  /** The maximal runs of word characters of `s` from position `i` on, left to right. */
  function RunsFrom(s: string, i: nat): seq<string>
    requires i <= |s|
    decreases |s| - i
  {
    if i == |s| then []
    else if !IsWordChar(s[i]) then RunsFrom(s, i + 1)
    else
      var j := RunEnd(s, i);
      [s[i..j]] + RunsFrom(s, j)
  }

  /** The runs found from a scan start are exactly the whole words at or after it. */
  lemma {:induction false} RunsFromAreWords(s: string, i: nat, w: string)
    requires ScanStart(s, i)
    ensures w in RunsFrom(s, i) <==> exists p :: i <= p && WordAt(s, w, p)
    decreases |s| - i
  {
    if i == |s| {
    } else if !IsWordChar(s[i]) {
      RunsFromAreWords(s, i + 1, w);
      if exists p :: i <= p && WordAt(s, w, p) {
        var p :| i <= p && WordAt(s, w, p);
        assert IsWordChar(s[p]) by {
          assert s[p..p + |w|][0] == s[p];
        }
      }
    } else {
      var j := RunEnd(s, i);
      assert OpensAt(s, i);
      RunsFromAreWords(s, j, w);
      assert RunsFrom(s, i) == [s[i..j]] + RunsFrom(s, j);
      if w == s[i..j] {
        assert WordAt(s, w, i);
      }
      if exists p :: i <= p && WordAt(s, w, p) {
        var p :| i <= p && WordAt(s, w, p);
        if p == i {
          WordEndsAtRunEnd(s, w, i);
        } else if p < j {
          assert IsWordChar(s[p - 1]);
        }
      }
    }
  }

  /** A whole word starting where a run starts is that run. */
  lemma WordEndsAtRunEnd(s: string, w: string, i: nat)
    requires i < |s| && WordAt(s, w, i)
    ensures w == s[i..RunEnd(s, i)]
  {
    var j := RunEnd(s, i);
    var e := i + |w|;
    forall k | i <= k < e
      ensures IsWordChar(s[k])
    {
      assert s[k] == s[i..e][k - i] == w[k - i];
    }
    assert j == e;
  }

  /** `[a-z]{4,}`: four or more small ASCII letters. */
  predicate IsToken(w: string) {
    |w| >= 4 && forall k :: 0 <= k < |w| ==> IsAsciiLower(w[k])
  }

  function FilterTokens(runs: seq<string>): (r: seq<string>)
    ensures forall w :: w in r <==> w in runs && IsToken(w)
  {
    if |runs| == 0 then []
    else (if IsToken(runs[0]) then [runs[0]] else []) + FilterTokens(runs[1..])
  }

  /** `re.findall(r'\b[a-z]{4,}\b', lower)`, in text order. */
  function FindTokens(lower: string): seq<string> {
    FilterTokens(RunsFrom(lower, 0))
  }

  /** `set(re.findall(r'\b[a-z]{4,}\b', text.lower()))`. */
  function Words(text: string): set<string> {
    set w | w in FindTokens(Lower(text))
  }

  /**
    The tokens of a text are exactly the whole words of its lower-cased form
    that are made of four or more small letters.
   */
  lemma WordsAreWholeTokens(text: string, w: string)
    ensures w in Words(text) <==> IsToken(w) && exists p :: WordAt(Lower(text), w, p)
  {
    var lower := Lower(text);
    assert ScanStart(lower, 0);
    RunsFromAreWords(lower, 0, w);
    if IsToken(w) && exists p :: WordAt(lower, w, p) {
      var p :| WordAt(lower, w, p);
      assert 0 <= p && WordAt(lower, w, p);
    }
  }

  /** Upper-case letters in the input do not hide tokens: the text is lower-cased first. */
  lemma WordsIgnoreCase(text: string)
    ensures Words(text) == Words(Lower(text))
  {
    var l := Lower(text);
    assert Lower(l) == l;
  }
}
